=== FILE: README.md ===
# log-config-core: the layered configuration engine, in Dafny

This project models the configuration core of log-config-core, a Java library.
It also proves properties of that model. The core has these parts:

- **`MapExt`**: an immutable string map. It has copy-on-write `putAll`, and
  typed getters (`getInt`, `getLong`, `getBool`, `get(key, def)`, `has`). The
  getters fall back to a default when a value is absent, empty or malformed.
- **`Config`**: a `MapExt` that also keeps raw bytes and their MD5 digest, and
  parses the bytes lazily.
  - **Reading text.** The text is split on `'\n'`. Every piece is trimmed,
    and empty pieces and `#` / `//` comment lines are dropped. A line is
    split at its first `=`. Then `unEscapeJava` runs on the value. That
    method is a copy of commons-lang's `StringEscapeUtils.unescapeJava`.
  - **Writing text.** A map is written back as `key=value\n` per entry,
    with no escaping.
- **`ConfigHelper.scanApplicationConfig`**: builds the application
  configuration from three layers. Built-in defaults are overridden by the
  first application properties file on the class path that is found and can
  be read; a file that fails to read is skipped. That file is overridden by
  the JVM system properties. Properties whose value holds a
  backslash are skipped. The helpers `firstNonNull` and
  `get(config, key, def)` are also modelled.
- **`ProcessInfo.profilePriority`**: the ordered lookup names of a process.
- **`LoggingUtil`**: the level-name check `isValid`, the lookup
  `getFileAbsolutePath` over the cached log files, and the logger filter of
  `getLoggers`.

## How the model is built

Java text is a sequence of UTF-16 code units (`JChar`). Bytes are `Byte`
values, and a byte array is a value, not a shared object (see "Left out").
`null` is `Option.None`. A caught exception is `Result.Err`.

Modules follow the source:

| file | module | what it holds |
|---|---|---|
| `results.dfy` | `Results` | `Option`, `Result` and the two Java exceptions |
| `javatext.dfy` | `JavaText` | `String.trim`, Guava trimming, `Character.digit` and `Integer.parseInt` |
| `escapes.dfy` | `Escapes` | `unEscapeJava` as written, a reference decoder, and an escaper |
| `propertiestext.dfy` | `PropertiesText` | `lines`, the per-line parse, the fold into a map, and the writer |
| `mapext.dfy` | `MapExt` | `MapExt` |
| `config.dfy` | `Config` | `Config`: state, writers, lazy parse and readers |
| `confighelper.dfy` | `ConfigHelper` | the layered resolver |
| `processinfo.dfy` | `ProcessInfo` | `profilePriority` |
| `loggingutil.dfy` | `LoggingUtil` | `isValid`, `getFileAbsolutePath`, `getLoggers` |

A mutating Java method becomes a function from the old `Config` state to the
new one. A getter that may trigger the lazy parse returns a `Read`: the state
after the call plus the value.

Some behaviour is outside the source's own code. The model takes it as
parameters (`Config.Env`):
- MD5 (`Hashing.md5().hashBytes(..).toString()`) is an uninterpreted
  `md5: Bytes -> JString`.
- UTF-8 encoding and decoding are the functions `encode` and `decode`.
  Only one lemma assumes anything about them (`Config.ContentReadsBack`). It
  assumes two premises: decoding inverts encoding on the written text, and
  decoding no bytes gives empty text. `resetContent` writes no bytes for an
  empty map, so the second premise covers that case.
- The iteration order of a Java map is a parameter `order`. It is
  constrained to list every key exactly once (`Enumerates`). That order
  depends on the map's history, not only on its contents.
- The class path and the file system are an oracle
  `probe: JString -> Probe`. It answers not found, read failed, or the
  bytes. System properties are a map.

These quirks are modelled as the code does them, not as intended:
- The `default:` branch of `unEscapeJava` does `j--`. When the first escape
  of a value is unrecognised, the prefix copied before it loses its last
  code unit. For example, `ab\q` decodes to `aq`. Later unrecognised escapes
  are harmless.
- `Config.putAll` merges into the inherited map without parsing first, then
  marks the object parsed. Bytes given to `copyOf(byte[])` that were never
  read are discarded.
- `\u` takes the next four code units through `Integer.parseInt(.., 16)`.
  That accepts a sign, so `\u-001` decodes to U+FFFF after the `(char)`
  cast. Too few code units or a non-hex digit throws. The exception is
  caught per line, so only that line's entry is skipped.

## Model

| member | source | states |
|---|---|---|
| JavaText.Trim | src/main/java/com/github/max/logconf/base/Config.java:93-97 | the result is the input between its first and last non-blank code unit, everything cut off is blank, and neither end of the result is blank |
| JavaText.TrimIdempotent | src/main/java/com/github/max/logconf/base/Config.java:93-97 | trimming a trimmed string changes nothing |
| JavaText.DigitsValueDefined | src/main/java/com/github/max/logconf/base/Config.java:153 | a digit string has a value exactly when every code unit is a digit of the radix |
| JavaText.ParseSigned | src/main/java/com/github/max/logconf/base/MapExt.java:58-67 | `parseInt`/`parseLong` succeed only with a value inside the type's range, and otherwise fail with a NumberFormatException; empty text always fails |
| JavaText.ParseShowRoundTrip | src/main/java/com/github/max/logconf/base/MapExt.java:58-82 | parsing reads back every in-range number that `toString` writes |
| Escapes.DecodeEscape | src/main/java/com/github/max/logconf/base/Config.java:126-158 | `\\`, `\"`, `\'`, `\t`, `\n`, `\r`, `\b` and `\f` give their code unit and consume 1; `\u`/`\U` consume 5 and give the `(char)` cast of `parseInt` of the next four code units; any other letter stands for itself, consumes 1 and is marked unrecognised; decoding fails exactly for a `\u`/`\U` with fewer than four code units or a non-number after it |
| Escapes.UnicodeEscapeExamples | src/main/java/com/github/max/logconf/base/Config.java:151-155 | `\U0041` decodes to `A`, and the signed `\u-001` decodes to U+FFFF |
| Escapes.UnescapeLoop | src/main/java/com/github/max/logconf/base/Config.java:117-173 | the scan loop of `unEscapeJava`, with the builder absent until the first escape; characterised by `Escapes.LoopWithBuffer` and `Escapes.LoopWithoutBuffer` |
| Escapes.UnescapeJava | src/main/java/com/github/max/logconf/base/Config.java:113-174 | empty text is returned as is, otherwise the loop runs from the start with no builder; characterised by `Escapes.UnescapeWithoutEscape`, `Escapes.UnescapeAgreesWithIntended` and `Escapes.UnescapeInvertsEscape` |
| Escapes.UnescapeWithoutEscape | src/main/java/com/github/max/logconf/base/Config.java:113-173 | a value with no backslash before its last code unit is returned unchanged, so a trailing backslash is kept literally |
| Escapes.UnescapeAgreesWithIntended | src/main/java/com/github/max/logconf/base/Config.java:113-174 | the copied un-escaper equals the reference decoder unless the first escape is unrecognised and has text before it |
| Escapes.UnescapeUnknownFirstEscape | src/main/java/com/github/max/logconf/base/Config.java:156-164 | with an unrecognised first escape after some text, the result drops the code unit before the backslash, which the reference decoder keeps |
| Escapes.UnknownEscapeExample | src/main/java/com/github/max/logconf/base/Config.java:156-164 | `ab\q` un-escapes to `aq` |
| Escapes.IntendedInvertsEscape | src/main/java/com/github/max/logconf/base/Config.java:126-155 | the reference decoder inverts Java-style escaping of any text |
| Escapes.UnescapeInvertsEscape | src/main/java/com/github/max/logconf/base/Config.java:113-174 | the as-written un-escaper also inverts Java-style escaping, since escaped text has no unrecognised escape |
| PropertiesText.Split | src/main/java/com/github/max/logconf/base/Config.java:215 | the pieces hold no separator and joined with it give back the text |
| PropertiesText.SplitJoin | src/main/java/com/github/max/logconf/base/Config.java:215 | splitting inverts joining for pieces without the separator |
| PropertiesText.KeepAllShape | src/main/java/com/github/max/logconf/base/Config.java:212-225 | every kept line is non-empty and trimmed, is not a comment when comments are removed, and gains no line break |
| PropertiesText.KeepAllAppend | src/main/java/com/github/max/logconf/base/Config.java:212-225 | lines are kept piece by piece, in order |
| PropertiesText.IsComment | src/main/java/com/github/max/logconf/base/Config.java:218 | a line is a comment when it starts with `#` or `//`; characterised through `PropertiesText.KeepPiece` and `PropertiesText.LinesOfLine` |
| PropertiesText.KeepPiece | src/main/java/com/github/max/logconf/base/Config.java:215-222 | a piece is dropped exactly when its Guava trim is empty or, with comment removal, a comment; otherwise that trim is kept |
| PropertiesText.Lines | src/main/java/com/github/max/logconf/base/Config.java:212-225 | every line returned is non-empty, trimmed and free of `'\n'`, and is not a comment when comments are removed |
| PropertiesText.LinesOfLine | src/main/java/com/github/max/logconf/base/Config.java:212-225 | a text without a line break gives its trim, or nothing when the trim is empty or a removed comment |
| PropertiesText.LinesAppend | src/main/java/com/github/max/logconf/base/Config.java:212-225 | the first line and the rest of the text are read independently, so every surviving line is returned, in text order |
| PropertiesText.IndexOf | src/main/java/com/github/max/logconf/base/Config.java:91 | the position found holds the code unit and no earlier one does; there is none exactly when the code unit is absent |
| PropertiesText.ParseLine | src/main/java/com/github/max/logconf/base/Config.java:91-104 | the result is NoEntry iff the line has no `=`; an entry's key is the `String.trim` of the text before the first `=`, and holds no `=`; its value is the un-escaped trim of the text after it, or "" when `=` is the last code unit |
| PropertiesText.ParseLineSkipped | src/main/java/com/github/max/logconf/base/Config.java:94-100 | a line is skipped exactly when text follows its first `=` and un-escaping that text, trimmed, throws |
| PropertiesText.FoldKeys | src/main/java/com/github/max/logconf/base/Config.java:86-105 | a key is in the parsed map iff some line produced an entry for it |
| PropertiesText.LastEntryWins | src/main/java/com/github/max/logconf/base/Config.java:97-102 | a later line with the same key overwrites the earlier value |
| PropertiesText.NonEntryIgnored | src/main/java/com/github/max/logconf/base/Config.java:92-100 | a line without `=`, or one whose value cannot be un-escaped, leaves the map as the other lines build it |
| PropertiesText.Fold | src/main/java/com/github/max/logconf/base/Config.java:86-105 | the map `parse` fills line by line; characterised by `PropertiesText.FoldKeys`, `PropertiesText.LastEntryWins` and `PropertiesText.NonEntryIgnored` |
| PropertiesText.ParseText | src/main/java/com/github/max/logconf/base/Config.java:86-105 | the map `parse` builds from decoded text: the lines with comments removed, each parsed, then folded; characterised by `PropertiesText.SerializeParseRoundTrip` and `Config.Parse` |
| PropertiesText.EntryLine | src/main/java/com/github/max/logconf/base/Config.java:77 | one written entry, `key=value`; characterised by `PropertiesText.ParseEntryLine` and `PropertiesText.SerializeIsJoin` |
| PropertiesText.Serialize | src/main/java/com/github/max/logconf/base/Config.java:72-80 | the written text is empty exactly when there are no entries |
| PropertiesText.SerializeIsJoin | src/main/java/com/github/max/logconf/base/Config.java:75-79 | the written text is the entry lines `key=value`, each followed by `'\n'` |
| PropertiesText.ParseEntryLine | src/main/java/com/github/max/logconf/base/Config.java:91-102 | a written `key=value` line reads back as that entry when the key and value are clean |
| PropertiesText.SerializeParseRoundTrip | src/main/java/com/github/max/logconf/base/Config.java:69-110 | the text written for a map with clean keys and values parses back to exactly that map |
| MapExt.PutAll | src/main/java/com/github/max/logconf/base/MapExt.java:29-34 | the keys are the union; `items` wins on a collision; every other old value stays |
| MapExt.Get | src/main/java/com/github/max/logconf/base/MapExt.java:126-128 | a value is returned exactly for a present key, and it is that key's value |
| MapExt.GetOr | src/main/java/com/github/max/logconf/base/MapExt.java:111-114 | the default is returned only for an absent key; a present empty value is returned as it is |
| MapExt.HasIffPresent | src/main/java/com/github/max/logconf/base/MapExt.java:116-118 | `has` is true iff the key is present |
| MapExt.GetInt | src/main/java/com/github/max/logconf/base/MapExt.java:58-67 | the result is a 32-bit int; the default for an absent or empty value; otherwise the parsed value, or the default when parsing fails |
| MapExt.GetIntOrZero | src/main/java/com/github/max/logconf/base/MapExt.java:54-56 | 0 for an absent or empty value; otherwise the parsed int, or 0 when parsing fails |
| MapExt.GetLong | src/main/java/com/github/max/logconf/base/MapExt.java:73-82 | as `GetInt`, with the 64-bit range |
| MapExt.GetLongOrZero | src/main/java/com/github/max/logconf/base/MapExt.java:69-71 | 0 for an absent or empty value; otherwise the parsed long, or 0 when parsing fails |
| MapExt.GetBool | src/main/java/com/github/max/logconf/base/MapExt.java:88-94 | the default for an absent or empty value, otherwise true iff the value is "true" ignoring case |
| MapExt.GetBoolOrFalse | src/main/java/com/github/max/logconf/base/MapExt.java:84-86 | true exactly for a present value equal to "true" ignoring case |
| MapExt.GetIntReadsToString | src/main/java/com/github/max/logconf/base/MapExt.java:58-67 | a stored decimal int reads back as itself, whatever the default |
| MapExt.GetLongReadsToString | src/main/java/com/github/max/logconf/base/MapExt.java:73-82 | a stored decimal long reads back as itself |
| MapExt.GetIntOutOfRange | src/main/java/com/github/max/logconf/base/MapExt.java:58-67 | a long beyond the int range reads as the default |
| MapExt.GetIntMalformed | src/main/java/com/github/max/logconf/base/MapExt.java:58-67 | a non-numeric value reads as the default |
| MapExt.GetBoolIgnoresCase | src/main/java/com/github/max/logconf/base/MapExt.java:88-94 | "TRUE" and "True" read as true even with default false |
| MapExt.GetBoolOtherIsFalse | src/main/java/com/github/max/logconf/base/MapExt.java:88-94 | a present value of another length reads as false even with default true |
| Config.EmptyConsistent | src/main/java/com/github/max/logconf/base/Config.java:19-21 | a new object is unparsed, has no content and no digest, and has an empty map |
| Config.CopyOfBytes | src/main/java/com/github/max/logconf/base/Config.java:37-41 | the content is the bytes, the digest is their hash, the object is unparsed and the map is untouched until the next read |
| Config.CopyOfText | src/main/java/com/github/max/logconf/base/Config.java:31-35 | the content is the UTF-8 bytes of the text, with their hash, unparsed |
| Config.ResetContent | src/main/java/com/github/max/logconf/base/Config.java:69-82 | parsed becomes true, the map is unchanged, an empty map gives empty content, otherwise the content is the written entries, and the digest is recomputed |
| Config.CopyOfMap | src/main/java/com/github/max/logconf/base/Config.java:43-47 | the map becomes exactly `items`; the content is rewritten and the digest matches it |
| Config.PutAll | src/main/java/com/github/max/logconf/base/Config.java:55-60 | the map becomes the old map overridden by `items`; the content is rewritten and the object is parsed |
| Config.Parse | src/main/java/com/github/max/logconf/base/Config.java:84-110 | parsing does nothing once parsed; null content only sets the flag; otherwise the map becomes the parsed text; content and digest never change |
| Config.Get | src/main/java/com/github/max/logconf/base/Config.java:176-182 | the object is parsed first, then the key is looked up |
| Config.GetAll | src/main/java/com/github/max/logconf/base/Config.java:184-190 | the object is parsed first, then the whole map is returned |
| Config.GetOr | src/main/java/com/github/max/logconf/base/MapExt.java:111-114 | the inherited `get(key, def)` parses first, then returns the default only for an absent key |
| Config.Has | src/main/java/com/github/max/logconf/base/MapExt.java:116-118 | the inherited `has` parses first |
| Config.GetInt | src/main/java/com/github/max/logconf/base/MapExt.java:58-67 | the inherited `getInt` parses first, then reads the parsed map as `MapExt.GetInt` does: an int, the default for a blank or malformed value |
| Config.GetLong | src/main/java/com/github/max/logconf/base/MapExt.java:73-82 | the inherited `getLong` parses first, then reads the parsed map as `MapExt.GetLong` does |
| Config.GetBool | src/main/java/com/github/max/logconf/base/MapExt.java:88-94 | the inherited `getBool` parses first, then reads the parsed map as `MapExt.GetBool` does |
| Config.GetString | src/main/java/com/github/max/logconf/base/Config.java:192-194 | the decoded content; null content has no result, where Java throws |
| Config.GetLines | src/main/java/com/github/max/logconf/base/Config.java:200-210 | `lines` of the decoded raw content, without parsing: non-empty, trimmed, comment-free when asked; null content has no result |
| Config.ParseIdempotent | src/main/java/com/github/max/logconf/base/Config.java:84-85 | a second parse changes nothing |
| Config.ReadsParseOnce | src/main/java/com/github/max/logconf/base/Config.java:176-190 | after one read, further reads leave the state alone |
| Config.ReadAfterCopyOfBytes | src/main/java/com/github/max/logconf/base/Config.java:37-41 | after `copyOf(byte[])`, a read sees the parsed new bytes |
| Config.PutAllDiscardsPendingContent | src/main/java/com/github/max/logconf/base/Config.java:55-60 | `putAll` on unread bytes gives the same object as if the bytes had never been set |
| Config.PutAllAfterRead | src/main/java/com/github/max/logconf/base/Config.java:55-60 | reading first makes `putAll` keep the parsed entries that `items` does not override |
| Config.ContentReadsBack | src/main/java/com/github/max/logconf/base/Config.java:69-110 | the content written for a clean map, copied into another object, reads back as that map |
| ConfigHelper.FirstNonNull | src/main/java/com/github/max/logconf/base/ConfigHelper.java:295-305 | a present first argument is returned; the result is absent iff every argument is absent |
| ConfigHelper.FirstNonNullIsFirst | src/main/java/com/github/max/logconf/base/ConfigHelper.java:295-305 | the result is the earliest present argument |
| ConfigHelper.Profile | src/main/java/com/github/max/logconf/base/ConfigHelper.java:123-126 | `process.profile` if set, else `spring.profiles.active`, else "develop" |
| ConfigHelper.Defaults | src/main/java/com/github/max/logconf/base/ConfigHelper.java:121-131 | exactly the keys `process.appId` ("0" when unset), `process.name` ("unknown" when unset) and `process.profile` (the profile) |
| ConfigHelper.CandidateNames | src/main/java/com/github/max/logconf/base/ConfigHelper.java:133-139 | the list ends with the default and plain application files; the profile's file is first iff the profile is non-empty and its file is not already listed; no name repeats |
| ConfigHelper.DefaultProfileAddsNothing | src/main/java/com/github/max/logconf/base/ConfigHelper.java:133-139 | the profile "default" adds no name |
| ConfigHelper.FirstReadable | src/main/java/com/github/max/logconf/base/ConfigHelper.java:142-153 | nothing is loaded iff no candidate is both found and read |
| ConfigHelper.FirstReadableIsFirst | src/main/java/com/github/max/logconf/base/ConfigHelper.java:142-153 | the bytes loaded are those of the earliest candidate that is found and read |
| ConfigHelper.FileLayer | src/main/java/com/github/max/logconf/base/ConfigHelper.java:140-153 | the file layer is empty when nothing was read, else the parsed bytes |
| ConfigHelper.OverrideLayer | src/main/java/com/github/max/logconf/base/ConfigHelper.java:156-164 | a system property enters the layer iff its value has no backslash, with its value |
| ConfigHelper.PutLayers | src/main/java/com/github/max/logconf/base/ConfigHelper.java:165-167 | three `putAll` calls on a new object give defaults overridden by the file, overridden by the properties |
| ConfigHelper.ScanApplicationConfig | src/main/java/com/github/max/logconf/base/ConfigHelper.java:119-169 | the resolved map is defaults < file < properties; the result is parsed and its digest matches its content |
| ConfigHelper.Layered | src/main/java/com/github/max/logconf/base/ConfigHelper.java:165-167 | the merged map, defaults < file < properties; characterised by `ConfigHelper.PropertyWins`, `ConfigHelper.FileBeatsDefaults`, `ConfigHelper.DefaultsLast` and `ConfigHelper.LayeredKeys` |
| ConfigHelper.PropertyWins | src/main/java/com/github/max/logconf/base/ConfigHelper.java:165-167 | a system property without a backslash always wins |
| ConfigHelper.FileBeatsDefaults | src/main/java/com/github/max/logconf/base/ConfigHelper.java:165-167 | the file wins over the defaults where no usable property is set |
| ConfigHelper.DefaultsLast | src/main/java/com/github/max/logconf/base/ConfigHelper.java:165-167 | a default survives only when neither other layer has the key |
| ConfigHelper.LayeredKeys | src/main/java/com/github/max/logconf/base/ConfigHelper.java:128-167 | a key is resolved iff some layer holds it; the three default keys are always resolved |
| ConfigHelper.Get | src/main/java/com/github/max/logconf/base/ConfigHelper.java:171-181 | a set system property is returned without touching the config, else the config's value, else the default |
| ProcessInfo.ProfilePriority | src/main/java/com/github/max/logconf/base/entity/ProcessInfo.java:21-36 | at most 4 non-empty entries; with ip and port, `ip:port` then `ip` first; without an ip, no address entry even if a port is set; the name comes last when present |
| ProcessInfo.ProfilePriorityCount | src/main/java/com/github/max/logconf/base/entity/ProcessInfo.java:21-36 | one entry per present field, plus `ip:port` when both are present; a port without an ip changes nothing |
| ProcessInfo.ProfileFollowsAddress | src/main/java/com/github/max/logconf/base/entity/ProcessInfo.java:29-31 | the profile follows the address entries iff it is non-empty |
| ProcessInfo.ProfilePriorityExample | src/main/java/com/github/max/logconf/base/entity/ProcessInfo.java:21-36 | a full record gives `10.0.0.1:8080, 10.0.0.1, prod, svc` |
| LoggingUtil.UpperChar | src/main/java/com/github/max/logconf/helper/LoggingUtil.java:167 | the upper case of one code unit takes 1 to 3 code units; only mappings that produce ASCII are modelled (see Left out); characterised by `LoggingUtil.UpperOfAscii` and `LoggingUtil.NonAsciiSpellings` |
| LoggingUtil.Upper | src/main/java/com/github/max/logconf/helper/LoggingUtil.java:167 | `StringUtils.upperCase` never shortens the text; partial in the same way as `UpperChar`; characterised by `LoggingUtil.UpperOfAscii` and `LoggingUtil.UpperIgnoresAsciiCase` |
| LoggingUtil.IsValid | src/main/java/com/github/max/logconf/helper/LoggingUtil.java:166-169 | a valid name is present and upper-cases to 3 to 5 code units |
| LoggingUtil.LevelsAreUpperAscii | src/main/java/com/github/max/logconf/helper/LoggingUtil.java:32 | every accepted level is upper-case ASCII |
| LoggingUtil.UpperOfAscii | src/main/java/com/github/max/logconf/helper/LoggingUtil.java:167 | on ASCII text upper-casing maps each code unit to its ASCII upper case |
| LoggingUtil.UpperIgnoresAsciiCase | src/main/java/com/github/max/logconf/helper/LoggingUtil.java:167 | names that differ only in ASCII case upper-case alike |
| LoggingUtil.IsValidIgnoresCase | src/main/java/com/github/max/logconf/helper/LoggingUtil.java:166-169 | changing the ASCII case of a name never changes its validity |
| LoggingUtil.IsValidAscii | src/main/java/com/github/max/logconf/helper/LoggingUtil.java:166-169 | an ASCII name is valid iff it equals OFF, TRACE, DEBUG, INFO, WARN or ERROR ignoring case |
| LoggingUtil.NonAsciiSpellings | src/main/java/com/github/max/logconf/helper/LoggingUtil.java:166-169 | a dotless-i "ınfo" and a ligature "oﬀ" are valid; null is not |
| LoggingUtil.FileAbsolutePath | src/main/java/com/github/max/logconf/helper/LoggingUtil.java:154-164 | "" for a null or empty name; the path of the first cached file with that name; "" when none matches |
| LoggingUtil.ConfiguredOnly | src/main/java/com/github/max/logconf/helper/LoggingUtil.java:131-139 | the kept loggers are exactly the configured ones of the input |
| LoggingUtil.ConfiguredOnlyAppend | src/main/java/com/github/max/logconf/helper/LoggingUtil.java:131-139 | filtering goes logger by logger, keeping context order |
| LoggingUtil.ConfiguredOnlyIdempotent | src/main/java/com/github/max/logconf/helper/LoggingUtil.java:131-139 | filtering twice is filtering once |
| LoggingUtil.GetLoggers | src/main/java/com/github/max/logconf/helper/LoggingUtil.java:124-141 | no loggers without a Logback context; all loggers in order with `showAll`; otherwise exactly the configured ones in order |

## Left out

- `MapExt.getDouble`: floating-point parsing.
- Config.PutAll, Config.CopyOfMap: the contract says the content is rewritten and matches its digest, but not which bytes it holds. `Config.ResetContent` states the bytes, and both members are built on it.
- `copyOf(Properties)` and `putAll(Properties)` in `MapExt` and `Config`: the
  same merge as the `Map` overloads, through Java `Properties`.
- `MapExt.copyOf(Map)` on its own: it is the map assignment inside
  `Config.CopyOfMap`. `ImmutableMap.copyOf` rejects null keys and values, and
  the model has none.
- The `synchronized` on `Config.parse`: concurrency. Parsing is modelled
  sequentially.
- `getString(Charset)` and the charset overloads of `getLines`: only UTF-8 is
  modelled, as the abstract `decode`.
- The logging inside `parse` when a value cannot be un-escaped. The entry is
  skipped, as in the code.
- Config.Consistent: Java byte arrays are shared, not copied.
  `copyOf(byte[])` keeps the caller's array, and `getContent()` hands out the
  same array. A caller that writes into it changes the content without
  changing the digest, and changes what a pending parse reads. The model
  treats bytes as values, so `Consistent` assumes that nobody writes into the
  array afterwards. No caller in the core does: `scanApplicationConfig`
  passes a freshly read array.
- MD5, UTF-8 and the iteration order of Java maps are parameters, not
  definitions (see above).
- `Character.digit`: only ASCII and fullwidth digits and Latin letters are
  modelled. Other Unicode decimal digits (Arabic-Indic, Devanagari, ...) are
  not. `Integer.parseInt` would accept them.
- LoggingUtil.IsValid: upper-casing is modelled for a default locale other
  than Turkish, Azeri or Lithuanian. Under Turkish or Azeri, `i` upper-cases
  to a dotted capital I, so "info" would not be valid there. Under
  Lithuanian, a combining dot above (U+0307) after `i` or `j` is dropped, so
  "i\u0307nfo" would be valid there and is not in the model.
- LoggingUtil.UpperChar, LoggingUtil.Upper: only the upper-casing that
  can produce ASCII is modelled: ASCII letters, dotless i, long s, sharp s
  and the Latin ligatures. Every other code unit is kept as it is, although
  Java maps, for example, é to É, ÿ to U+0178 and µ to U+039C. `isValid`
  cannot observe the difference. Every level name is ASCII, and such a code
  unit's real upper case is either itself or contains a non-ASCII code unit,
  so the name fails to match a level either way.
- `ConfigHelper`: `scanConfigPath`, `scanProperty`, `scanResource`,
  `scanProcessInfo`, `getHostName` and `isInnerIP` read the class path, the
  file system, the environment or DNS. The lookup of a file and the reading
  of its bytes are the abstract `probe`.
- `LoggingUtil`: `getLogFileInfos`, `getAppenders`, `setLogger` and
  `getLogger` talk to Logback and the file system. A logger is a record of
  its name, optional level and number of appenders. A cached log file is a
  record of its name and absolute path.
- The servlets, `SimpleHttpClient`, `IpUtil`, `FileUtil` and the constant
  and data-holder classes: HTTP, network and file I/O, with no logic of the
  core.

=== FILE: config.dfy ===
/** `Config`: a configuration held both as raw bytes (with their MD5) and as
    a lazily parsed string map.  An operation that changes the object is a
    function from the old state to the new one; a getter that may trigger the
    lazy parse returns the state after the call together with its value. */
module Config {
  import opened Results
  import opened JavaText
  import opened PropertiesText
  import MapExt

  /** The library code the class calls and this model leaves abstract:
      Guava's `Hashing.md5().hashBytes(..).toString()` and the JDK's UTF-8
      `String.getBytes` / `new String(bytes)`. */
  datatype Env = Env(
    md5: Bytes -> JString,
    encode: JString -> Bytes,
    decode: Bytes -> JString)

  /** The object's fields: `parsed`, `content` (`None` for null), `md5`, and
      the map `m` inherited from `MapExt`. */
  datatype Config = Config(
    parsed: bool,
    content: Option<Bytes>,
    md5: Option<JString>,
    items: map<JString, JString>)

  /** `new Config()`. */
  const Empty: Config := Config(false, None, None, map[])

  /** The state after a call, and what the call returned. */
  datatype Read<T> = Read(state: Config, value: T)

  /** The MD5 field always describes the content field. */
  predicate Consistent(env: Env, c: Config) {
    match c.content
    case None => c.md5.None?
    case Some(b) => c.md5 == Some(env.md5(b))
  }

  /** A new object has no content, no digest and an empty map, and is not
      yet parsed. */
  lemma EmptyConsistent(env: Env)
    ensures Consistent(env, Empty) && !Empty.parsed && Empty.items == map[]
  {
  }

  // ---------------------------------------------------------------------------
  // Writers

  /** `copyOf(byte[])`: new content, to be parsed on the next read; the map
      is left as it was until then. */
  function CopyOfBytes(env: Env, c: Config, b: Bytes): (r: Config)
    ensures Consistent(env, r)
    ensures !r.parsed && r.content == Some(b) && r.items == c.items
  {
    Config(false, Some(b), Some(env.md5(b)), c.items)
  }

  /** `copyOf(String)`: the UTF-8 bytes of the text become the content. */
  function CopyOfText(env: Env, c: Config, s: JString): (r: Config)
    ensures Consistent(env, r)
    ensures !r.parsed && r.content == Some(env.encode(s)) && r.items == c.items
  {
    CopyOfBytes(env, c, env.encode(s))
  }

  /** `resetContent()`: marks the object parsed and rewrites the content from
      the map, visiting the entries in `order` (the map's own iteration
      order); an empty map gives empty content. */
  function ResetContent(env: Env, c: Config, order: seq<JString>): (r: Config)
    requires Enumerates(order, c.items)
    ensures Consistent(env, r)
    ensures r.parsed && r.items == c.items && r.content.Some?
    ensures |c.items| == 0 ==> r.content == Some([])
    ensures |c.items| > 0 ==> r.content == Some(env.encode(Serialize(c.items, order)))
  {
    var b: Bytes := if |c.items| == 0 then [] else env.encode(Serialize(c.items, order));
    Config(true, Some(b), Some(env.md5(b)), c.items)
  }

  /** `copyOf(Map)`: the map replaces the old one and the content is
      rewritten from it. */
  function CopyOfMap(env: Env, c: Config, items: map<JString, JString>, order: seq<JString>): (r: Config)
    requires Enumerates(order, items)
    ensures Consistent(env, r)
    ensures r.parsed && r.items == items && r.content.Some?
  {
    ResetContent(env, c.(items := items), order)
  }

  /** `putAll(Map)`: merges `items` into the inherited field `m` directly,
      without parsing first, so any content still waiting to be parsed is
      dropped; then rewrites the content. */
  function PutAll(env: Env, c: Config, items: map<JString, JString>, order: seq<JString>): (r: Config)
    requires Enumerates(order, MapExt.PutAll(c.items, items))
    ensures Consistent(env, r)
    ensures r.parsed && r.content.Some? && r.items == MapExt.PutAll(c.items, items)
  {
    ResetContent(env, c.(items := MapExt.PutAll(c.items, items)), order)
  }

  // ---------------------------------------------------------------------------
  // Lazy parsing and readers

  /** `parse()`: once only.  Null content leaves the map as it was; otherwise
      the map becomes what the decoded text holds. */
  function Parse(env: Env, c: Config): (r: Config)
    ensures r.parsed
    ensures r.content == c.content && r.md5 == c.md5
    ensures c.parsed ==> r == c
    ensures !c.parsed && c.content.None? ==> r.items == c.items
    ensures !c.parsed && c.content.Some? ==> r.items == ParseText(env.decode(c.content.value))
  {
    if c.parsed then c
    else
      match c.content
      case None => c.(parsed := true)
      case Some(b) => c.(parsed := true, items := ParseText(env.decode(b)))
  }

  /** `get(key)`: parses if needed, then looks the key up. */
  function Get(env: Env, c: Config, key: JString): (r: Read<Option<JString>>)
    ensures r.state == Parse(env, c)
    ensures r.value.Some? <==> key in r.state.items
    ensures r.value.Some? ==> r.value.value == r.state.items[key]
  {
    var s := Parse(env, c);
    Read(s, MapExt.Get(s.items, key))
  }

  /** `getAll()`: parses if needed, then returns the whole map. */
  function GetAll(env: Env, c: Config): (r: Read<map<JString, JString>>)
    ensures r.state == Parse(env, c) && r.value == r.state.items
  {
    var s := Parse(env, c);
    Read(s, s.items)
  }

  /** The inherited `get(key, def)`, `has`, `getInt`, `getLong` and `getBool`
      all read through the overridden `get`, so they parse first too. */
  function GetOr(env: Env, c: Config, key: JString, def: Option<JString>): (r: Read<Option<JString>>)
    ensures r.state == Parse(env, c)
    ensures key in r.state.items ==> r.value == Some(r.state.items[key])
    ensures key !in r.state.items ==> r.value == def
  {
    var s := Parse(env, c);
    Read(s, MapExt.GetOr(s.items, key, def))
  }

  function Has(env: Env, c: Config, key: JString): (r: Read<bool>)
    ensures r.state == Parse(env, c)
    ensures r.value <==> key in r.state.items
  {
    var s := Parse(env, c);
    Read(s, MapExt.Has(s.items, key))
  }

  function GetInt(env: Env, c: Config, key: JString, def: int): (r: Read<int>)
    requires INT_MIN <= def <= INT_MAX
    ensures r.state == Parse(env, c)
    ensures INT_MIN <= r.value <= INT_MAX
    ensures MapExt.Blank(r.state.items, key) ==> r.value == def
    ensures r.value == MapExt.GetInt(r.state.items, key, def)
  {
    var s := Parse(env, c);
    Read(s, MapExt.GetInt(s.items, key, def))
  }

  function GetLong(env: Env, c: Config, key: JString, def: int): (r: Read<int>)
    requires LONG_MIN <= def <= LONG_MAX
    ensures r.state == Parse(env, c)
    ensures LONG_MIN <= r.value <= LONG_MAX
    ensures MapExt.Blank(r.state.items, key) ==> r.value == def
    ensures r.value == MapExt.GetLong(r.state.items, key, def)
  {
    var s := Parse(env, c);
    Read(s, MapExt.GetLong(s.items, key, def))
  }

  function GetBool(env: Env, c: Config, key: JString, def: bool): (r: Read<bool>)
    ensures r.state == Parse(env, c)
    ensures MapExt.Blank(r.state.items, key) ==> r.value == def
    ensures r.value == MapExt.GetBool(r.state.items, key, def)
  {
    var s := Parse(env, c);
    Read(s, MapExt.GetBool(s.items, key, def))
  }

  /** `getString()`: the content decoded; `None` where Java dereferences the
      null content and throws. */
  function GetString(env: Env, c: Config): (r: Option<JString>)
    ensures r.Some? <==> c.content.Some?
    ensures r.Some? ==> r.value == env.decode(c.content.value)
  {
    match c.content
    case None => None
    case Some(b) => Some(env.decode(b))
  }

  /** `getLines(charset, removeComment)`: the raw content split into
      trimmed, non-empty lines, never parsing; `None` for null content. */
  function GetLines(env: Env, c: Config, removeComment: bool): (r: Option<seq<JString>>)
    ensures r.Some? <==> c.content.Some?
    ensures r.Some? ==> r.value == Lines(env.decode(c.content.value), removeComment)
    ensures r.Some? ==> forall k :: 0 <= k < |r.value| ==>
              LineShape(r.value[k], removeComment) && NEWLINE !in r.value[k]
  {
    match c.content
    case None => None
    case Some(b) => Some(Lines(env.decode(b), removeComment))
  }

  // ---------------------------------------------------------------------------
  // Properties

  /** The content is parsed at most once: a second parse, or any later read,
      changes nothing. */
  lemma ParseIdempotent(env: Env, c: Config)
    ensures Parse(env, Parse(env, c)) == Parse(env, c)
  {
  }

  lemma ReadsParseOnce(env: Env, c: Config, k1: JString, k2: JString)
    ensures var s := Get(env, c, k1).state;
              Get(env, s, k2).state == s && GetAll(env, s).state == s
  {
    ParseIdempotent(env, c);
  }

  /** Once parsed, new bytes are invisible until the object is marked
      unparsed again; `copyOf(byte[])` does exactly that. */
  lemma ReadAfterCopyOfBytes(env: Env, c: Config, b: Bytes, key: JString)
    ensures Get(env, CopyOfBytes(env, c, b), key).value ==
            MapExt.Get(ParseText(env.decode(b)), key)
  {
  }

  /** `putAll` on an object whose content has not been parsed yet discards
      that content: the result is the same as if it had never been set. */
  lemma PutAllDiscardsPendingContent(env: Env, c: Config, b: Bytes,
                                     items: map<JString, JString>, order: seq<JString>)
    requires Enumerates(order, MapExt.PutAll(c.items, items))
    ensures PutAll(env, CopyOfBytes(env, c, b), items, order) == PutAll(env, c, items, order)
  {
  }

  /** Reading first makes `putAll` keep the parsed entries that `items`
      does not override. */
  lemma PutAllAfterRead(env: Env, c: Config, b: Bytes, items: map<JString, JString>,
                        order: seq<JString>, key: JString)
    requires var s := GetAll(env, CopyOfBytes(env, c, b)).state;
             Enumerates(order, MapExt.PutAll(s.items, items))
    requires key in ParseText(env.decode(b)) && key !in items
    ensures var s := GetAll(env, CopyOfBytes(env, c, b)).state;
            PutAll(env, s, items, order).items[key] == ParseText(env.decode(b))[key]
  {
  }

  /** The content written for a map reads back as that map, provided UTF-8
      decoding inverts encoding on the written text and every key and value
      survives the line format (no line break, no '=' in a key, no backslash
      in a value, nothing trimming would cut). */
  lemma ContentReadsBack(env: Env, c: Config, items: map<JString, JString>,
                         order: seq<JString>, d: Config)
    requires Enumerates(order, items)
    requires forall k :: k in items ==> CleanKey(k) && CleanValue(items[k])
    requires env.decode(env.encode(Serialize(items, order))) == Serialize(items, order)
    requires env.decode([]) == []
    ensures var written := CopyOfMap(env, c, items, order).content.value;
            GetAll(env, CopyOfBytes(env, d, written)).value == items
  {
    SerializeParseRoundTrip(items, order);
  }
}

=== FILE: confighelper.dfy ===
/** `ConfigHelper`: how the application configuration is assembled from
    three layers: built-in defaults, the first application properties file
    found on the class path, and the JVM system properties.  The class path
    and the file system are an oracle (`Probe`), the system properties a
    map. */
module ConfigHelper {
  import opened Results
  import opened JavaText
  import opened PropertiesText
  import MapExt
  import Config

  /** `System.getProperties()`: property name to value. */
  type SystemProperties = map<JString, JString>

  function APP_ID_KEY(): JString { Lit("process.appId") }
  function NAME_KEY(): JString { Lit("process.name") }
  function PROFILE_KEY(): JString { Lit("process.profile") }
  function SPRING_PROFILE_KEY(): JString { Lit("spring.profiles.active") }
  function DEFAULT_FILE(): JString { Lit("application-default.properties") }
  function APPLICATION_FILE(): JString { Lit("application.properties") }

  /** `System.getProperty(key, def)`. */
  function PropertyOr(props: SystemProperties, key: JString, def: JString): (r: JString)
    ensures key in props ==> r == props[key]
    ensures key !in props ==> r == def
  {
    if key in props then props[key] else def
  }

  /** `firstNonNull(first, more...)`: the first present argument, if any. */
  function FirstNonNull<T>(first: Option<T>, more: seq<Option<T>>): (r: Option<T>)
    ensures first.Some? ==> r == first
    ensures r.None? <==> first.None? && forall i :: 0 <= i < |more| ==> more[i].None?
    decreases |more|
  {
    if first.Some? || |more| == 0 then first else FirstNonNull(more[0], more[1..])
  }

  /** The result is the earliest present argument. */
  lemma {:induction false} FirstNonNullIsFirst<T>(first: Option<T>, more: seq<Option<T>>, i: nat)
    requires first.None? && i < |more| && more[i].Some?
    requires forall j :: 0 <= j < i ==> more[j].None?
    ensures FirstNonNull(first, more) == more[i]
    decreases i
  {
    if i > 0 {
      FirstNonNullIsFirst(more[0], more[1..], i - 1);
    }
  }

  /** The active profile: `process.profile` when set, otherwise
      `spring.profiles.active`, otherwise "develop"; never null. */
  function Profile(props: SystemProperties): (r: JString)
    ensures PROFILE_KEY() in props ==> r == props[PROFILE_KEY()]
    ensures PROFILE_KEY() !in props ==> r == PropertyOr(props, SPRING_PROFILE_KEY(), Lit("develop"))
  {
    var p := FirstNonNull(
      if PROFILE_KEY() in props then Some(props[PROFILE_KEY()]) else None,
      [Some(PropertyOr(props, SPRING_PROFILE_KEY(), Lit("develop")))]);
    p.value
  }

  /** The defaults layer: exactly the keys `process.appId` ("0" when unset),
      `process.name` ("unknown" when unset) and `process.profile`. */
  function Defaults(props: SystemProperties): (r: map<JString, JString>)
    ensures r.Keys == {APP_ID_KEY(), NAME_KEY(), PROFILE_KEY()}
    ensures r[APP_ID_KEY()] == PropertyOr(props, APP_ID_KEY(), Lit("0"))
    ensures r[NAME_KEY()] == PropertyOr(props, NAME_KEY(), Lit("unknown"))
    ensures r[PROFILE_KEY()] == Profile(props)
  {
    assert |APP_ID_KEY()| == 13 && |NAME_KEY()| == 12 && |PROFILE_KEY()| == 15;
    map[APP_ID_KEY() := PropertyOr(props, APP_ID_KEY(), Lit("0")),
        NAME_KEY() := PropertyOr(props, NAME_KEY(), Lit("unknown")),
        PROFILE_KEY() := Profile(props)]
  }

  /** `"application-" + profile + ".properties"`. */
  function ProfileFile(profile: JString): JString {
    Lit("application-") + profile + Lit(".properties")
  }

  /** The file names to try, in order: the profile's own file first (when
      the profile is non-empty and its file is not already listed), then
      the default file, then the plain application file. */
  function CandidateNames(profile: JString): (r: seq<JString>)
    ensures |r| == 2 || |r| == 3
    ensures r[|r| - 2..] == [DEFAULT_FILE(), APPLICATION_FILE()]
    ensures |r| == 3 <==> |profile| > 0 && ProfileFile(profile) !in [DEFAULT_FILE(), APPLICATION_FILE()]
    ensures |r| == 3 ==> r[0] == ProfileFile(profile)
    ensures forall i, j :: 0 <= i < j < |r| ==> r[i] != r[j]
  {
    var names := [DEFAULT_FILE(), APPLICATION_FILE()];
    assert |names[0]| == 30 && |names[1]| == 22;
    if |profile| > 0 && ProfileFile(profile) !in names then [ProfileFile(profile)] + names
    else names
  }

  /** The profile "default" names the default file, which is not repeated. */
  lemma DefaultProfileAddsNothing()
    ensures CandidateNames(Lit("default")) == [DEFAULT_FILE(), APPLICATION_FILE()]
  {
    assert ProfileFile(Lit("default")) == DEFAULT_FILE();
  }

  /** What looking a file name up on the class path and reading it gives. */
  datatype Probe = NotFound | ReadFailed | Found(bytes: Bytes)

  /** The bytes of the first candidate that is both found and read; a read
      failure moves on to the next name. */
  function FirstReadable(names: seq<JString>, probe: JString -> Probe): (r: Option<Bytes>)
    ensures r.None? <==> forall i :: 0 <= i < |names| ==> !probe(names[i]).Found?
    decreases |names|
  {
    if |names| == 0 then None
    else
      match probe(names[0])
      case Found(b) => Some(b)
      case _ => FirstReadable(names[1..], probe)
  }

  /** The loaded bytes are those of the earliest readable candidate. */
  lemma {:induction false} FirstReadableIsFirst(names: seq<JString>, probe: JString -> Probe, i: nat)
    requires i < |names| && probe(names[i]).Found?
    requires forall j :: 0 <= j < i ==> !probe(names[j]).Found?
    ensures FirstReadable(names, probe) == Some(probe(names[i]).bytes)
    decreases i
  {
    if i > 0 {
      assert !probe(names[0]).Found?;
      FirstReadableIsFirst(names[1..], probe, i - 1);
    }
  }

  /** The file layer: `getAll()` of a fresh `Config` holding the loaded
      bytes, or of an untouched one (an empty map) when nothing was read. */
  function FileLayer(env: Config.Env, names: seq<JString>, probe: JString -> Probe): (r: map<JString, JString>)
    ensures FirstReadable(names, probe).None? ==> r == map[]
    ensures FirstReadable(names, probe).Some? ==>
              r == ParseText(env.decode(FirstReadable(names, probe).value))
  {
    var file := match FirstReadable(names, probe)
                case None => Config.Empty
                case Some(b) => Config.CopyOfBytes(env, Config.Empty, b);
    Config.GetAll(env, file).value
  }

  /** The override layer: every system property except those whose value
      contains a backslash (Windows paths would not survive the line
      format). */
  function OverrideLayer(props: SystemProperties): (r: map<JString, JString>)
    ensures forall k :: k in r <==> k in props && BACKSLASH !in props[k]
    ensures forall k :: k in r ==> r[k] == props[k] && BACKSLASH !in r[k]
  {
    map k | k in props && BACKSLASH !in props[k] :: props[k]
  }

  /** The merged map: defaults, overridden by the file, overridden by the
      system properties. */
  function Layered(env: Config.Env, props: SystemProperties, probe: JString -> Probe): map<JString, JString> {
    MapExt.PutAll(
      MapExt.PutAll(Defaults(props), FileLayer(env, CandidateNames(Profile(props)), probe)),
      OverrideLayer(props))
  }

  /** `new Config().putAll(d).putAll(f).putAll(p)`; `o1`..`o3` are the
      iteration orders of the three intermediate maps, which decide the
      order of the written content. */
  function PutLayers(env: Config.Env, d: map<JString, JString>, f: map<JString, JString>,
                     p: map<JString, JString>, o1: seq<JString>, o2: seq<JString>, o3: seq<JString>): (r: Config.Config)
    requires Enumerates(o1, d)
    requires Enumerates(o2, MapExt.PutAll(d, f))
    requires Enumerates(o3, MapExt.PutAll(MapExt.PutAll(d, f), p))
    ensures Config.Consistent(env, r) && r.parsed
    ensures r.items == MapExt.PutAll(MapExt.PutAll(d, f), p)
  {
    var start := Config.Empty;
    assert MapExt.PutAll(start.items, d) == d;
    var c1 := Config.PutAll(env, start, d, o1);
    assert c1.items == d;
    var c2 := Config.PutAll(env, c1, f, o2);
    assert c2.items == MapExt.PutAll(d, f);
    Config.PutAll(env, c2, p, o3)
  }

  /** `scanApplicationConfig()`: the three layers merged into a fresh
      `Config` in the order defaults, file, system properties. */
  function ScanApplicationConfig(env: Config.Env, props: SystemProperties, probe: JString -> Probe,
                                 o1: seq<JString>, o2: seq<JString>, o3: seq<JString>): (r: Config.Config)
    requires var d := Defaults(props);
             var f := FileLayer(env, CandidateNames(Profile(props)), probe);
             && Enumerates(o1, d)
             && Enumerates(o2, MapExt.PutAll(d, f))
             && Enumerates(o3, MapExt.PutAll(MapExt.PutAll(d, f), OverrideLayer(props)))
    ensures Config.Consistent(env, r) && r.parsed
    ensures r.items == Layered(env, props, probe)
  {
    PutLayers(env, Defaults(props), FileLayer(env, CandidateNames(Profile(props)), probe),
              OverrideLayer(props), o1, o2, o3)
  }

  /** A system property without a backslash always wins. */
  lemma PropertyWins(env: Config.Env, props: SystemProperties, probe: JString -> Probe, key: JString)
    requires key in props && BACKSLASH !in props[key]
    ensures key in Layered(env, props, probe) && Layered(env, props, probe)[key] == props[key]
  {
  }

  /** The file beats the defaults wherever no usable property is set. */
  lemma FileBeatsDefaults(env: Config.Env, props: SystemProperties, probe: JString -> Probe, key: JString)
    requires var f := FileLayer(env, CandidateNames(Profile(props)), probe);
             key in f && (key !in props || BACKSLASH in props[key])
    ensures Layered(env, props, probe)[key] == FileLayer(env, CandidateNames(Profile(props)), probe)[key]
  {
  }

  /** A default survives only where neither other layer has the key. */
  lemma DefaultsLast(env: Config.Env, props: SystemProperties, probe: JString -> Probe, key: JString)
    requires key in Defaults(props)
    requires key !in FileLayer(env, CandidateNames(Profile(props)), probe)
    requires key !in props || BACKSLASH in props[key]
    ensures Layered(env, props, probe)[key] == Defaults(props)[key]
  {
  }

  /** The three default keys are always resolved, and nothing else appears
      that no layer holds; a property with a backslash contributes
      nothing. */
  lemma LayeredKeys(env: Config.Env, props: SystemProperties, probe: JString -> Probe)
    ensures var f := FileLayer(env, CandidateNames(Profile(props)), probe);
            forall k :: k in Layered(env, props, probe) <==>
              k in Defaults(props) || k in f || (k in props && BACKSLASH !in props[k])
    ensures {APP_ID_KEY(), NAME_KEY(), PROFILE_KEY()} <= Layered(env, props, probe).Keys
  {
  }

  /** `get(config, key, def)`: the system property when set (the config is
      not even consulted), else the config's value, else the default. */
  function Get(env: Config.Env, props: SystemProperties, c: Config.Config, key: JString,
               def: Option<JString>): (r: Config.Read<Option<JString>>)
    ensures key in props ==> r == Config.Read(c, Some(props[key]))
    ensures key !in props ==> r.state == Config.Parse(env, c)
    ensures key !in props && key in r.state.items ==> r.value == Some(r.state.items[key])
    ensures key !in props && key !in r.state.items ==> r.value == def
  {
    if key in props then Config.Read(c, Some(props[key]))
    else
      var g := Config.Get(env, c, key);
      if g.value.Some? then g else Config.Read(g.state, def)
  }
}

=== FILE: escapes.dfy ===
/** The backslash un-escaper `Config.unEscapeJava`, a copy of commons-lang's
    `StringEscapeUtils.unescapeJava`, modelled as written; a reference
    decoder that applies every escape independently; and a Java-style escaper
    that both decoders invert. */
module Escapes {
  import opened Results
  import opened JavaText

  /** One decoded escape: the code unit it stands for, how many code units
      after the backslash it consumed, and whether it went through the
      `default:` branch of the switch (an unrecognised escape letter). */
  datatype Escape = Escape(ch: JChar, width: nat, unknown: bool)

  /** The `switch` on the code unit after a backslash; `w` starts at that
      code unit.  `\u`/`\U` take the next four code units through
      `Integer.parseInt(.., 16)` and the `(char)` cast; too few of them is a
      StringIndexOutOfBoundsException from `substring`. */
  function DecodeEscape(w: JString): (r: Result<Escape>)
    requires |w| > 0
    ensures r.Ok? ==> 1 <= r.value.width <= |w|
    ensures r.Ok? && r.value.unknown ==> r.value.ch == w[0] && r.value.width == 1
    ensures r.Err? <==> (w[0] == 117 || w[0] == 85)
                        && (|w| < 5 || ParseSigned(w[1..5], 16, INT_MIN, INT_MAX).Err?)
    ensures (w[0] == 117 || w[0] == 85) && r.Ok? ==>
              r.value.width == 5 && !r.value.unknown &&
              r.value.ch == ToJChar(ParseSigned(w[1..5], 16, INT_MIN, INT_MAX).value)
    ensures !(w[0] == 117 || w[0] == 85) ==> r.Ok? && r.value.width == 1
    ensures w[0] == BACKSLASH || w[0] == DOUBLE_QUOTE || w[0] == SINGLE_QUOTE ==> r == Ok(Escape(w[0], 1, false))
    ensures w[0] == 116 ==> r == Ok(Escape(TAB, 1, false))
    ensures w[0] == 110 ==> r == Ok(Escape(NEWLINE, 1, false))
    ensures w[0] == 114 ==> r == Ok(Escape(CARRIAGE_RETURN, 1, false))
    ensures w[0] == 98 ==> r == Ok(Escape(BACKSPACE, 1, false))
    ensures w[0] == 102 ==> r == Ok(Escape(FORM_FEED, 1, false))
    ensures r.Ok? && r.value.unknown <==>
              w[0] !in {BACKSLASH, DOUBLE_QUOTE, SINGLE_QUOTE, 116, 110, 114, 98, 102, 117, 85}
  {
    var c := w[0];
    if c == BACKSLASH || c == DOUBLE_QUOTE || c == SINGLE_QUOTE then Ok(Escape(c, 1, false))
    else if c == 116 then Ok(Escape(TAB, 1, false))               // 't'
    else if c == 110 then Ok(Escape(NEWLINE, 1, false))           // 'n'
    else if c == 114 then Ok(Escape(CARRIAGE_RETURN, 1, false))   // 'r'
    else if c == 98 then Ok(Escape(BACKSPACE, 1, false))          // 'b'
    else if c == 102 then Ok(Escape(FORM_FEED, 1, false))         // 'f'
    else if c == 117 || c == 85 then                              // 'u', 'U'
      if |w| < 5 then Err(IndexOutOfBounds)
      else
        match ParseSigned(w[1..5], 16, INT_MIN, INT_MAX)
        case Ok(n) => Ok(Escape(ToJChar(n), 5, false))
        case Err(e) => Err(e)
    else Ok(Escape(c, 1, true))
  }

  /** `i` starts an escape: a backslash that is not the last code unit. */
  predicate EscapeStart(v: JString, i: int) {
    0 <= i < |v| - 1 && v[i] == BACKSLASH
  }

  /** The loop of `unEscapeJava` from index `i`.  `buf` is the Java
      `StringBuilder`, `None` until the first escape is met; on that first
      escape the prefix before the backslash is copied into it, one code unit
      shorter when the escape is unrecognised (the `j--` of the default
      branch).  Without any escape the input is returned unchanged. */
  function UnescapeLoop(v: JString, i: nat, buf: Option<JString>): Result<JString>
    requires i <= |v|
    decreases |v| - i
  {
    if i == |v| then Ok(buf.GetOr(v))
    else if EscapeStart(v, i) then
      match DecodeEscape(v[i + 1..])
      case Err(e) => Err(e)
      case Ok(esc) =>
        var j := if esc.unknown then i - 1 else i;
        var b := match buf case Some(b) => b case None => if j > 0 then v[..j] else [];
        UnescapeLoop(v, i + 1 + esc.width, Some(b + [esc.ch]))
    else
      UnescapeLoop(v, i + 1, if buf.Some? then Some(buf.value + [v[i]]) else None)
  }

  /** `Config.unEscapeJava`: an empty value is returned as is. */
  function UnescapeJava(v: JString): Result<JString> {
    if |v| == 0 then Ok(v) else UnescapeLoop(v, 0, None)
  }

  /** Reference decoder: every escape replaced by its code unit, every other
      code unit kept, independently of where the escape stands. */
  function Intended(v: JString): Result<JString>
    decreases |v|
  {
    if |v| == 0 then Ok([])
    else if EscapeStart(v, 0) then
      match DecodeEscape(v[1..])
      case Err(e) => Err(e)
      case Ok(esc) => Prepend([esc.ch], Intended(v[1 + esc.width..]))
    else Prepend([v[0]], Intended(v[1..]))
  }

  function Prepend(b: JString, r: Result<JString>): Result<JString> {
    match r
    case Ok(x) => Ok(b + x)
    case Err(e) => Err(e)
  }

  lemma PrependAssoc(a: JString, b: JString, r: Result<JString>)
    ensures Prepend(a, Prepend(b, r)) == Prepend(a + b, r)
  {
    if r.Ok? {
      assert a + (b + r.value) == (a + b) + r.value;
    }
  }

  /** Index of the first escape at or after `i`, or `|v|` if there is none. */
  function FirstEscape(v: JString, i: nat): (e: nat)
    requires i <= |v|
    ensures i <= e <= |v|
    ensures e < |v| ==> EscapeStart(v, e)
    ensures forall k :: i <= k < e ==> !EscapeStart(v, k)
    decreases |v| - i
  {
    if i == |v| || EscapeStart(v, i) then i else FirstEscape(v, i + 1)
  }

  /** Once the buffer exists, the loop appends exactly what the reference
      decoder produces for the rest of the value. */
  lemma {:induction false} LoopWithBuffer(v: JString, i: nat, b: JString)
    requires i <= |v|
    ensures UnescapeLoop(v, i, Some(b)) == Prepend(b, Intended(v[i..]))
    decreases |v| - i
  {
    if i == |v| {
      assert b + [] == b;
    } else {
      assert v[i..][1..] == v[i + 1..];
      if EscapeStart(v, i) {
        match DecodeEscape(v[i + 1..])
        case Err(e) =>
        case Ok(esc) =>
          assert v[i..][1 + esc.width..] == v[i + 1 + esc.width..];
          LoopWithBuffer(v, i + 1 + esc.width, b + [esc.ch]);
          PrependAssoc(b, [esc.ch], Intended(v[i + 1 + esc.width..]));
      } else {
        LoopWithBuffer(v, i + 1, b + [v[i]]);
        PrependAssoc(b, [v[i]], Intended(v[i + 1..]));
      }
    }
  }

  /** The reference decoder copies the escape-free stretch up to the next
      escape literally. */
  lemma {:induction false} IntendedUpToEscape(v: JString, i: nat)
    requires i <= |v|
    ensures Intended(v[i..]) == Prepend(v[i..FirstEscape(v, i)], Intended(v[FirstEscape(v, i)..]))
    decreases |v| - i
  {
    var e := FirstEscape(v, i);
    if e == i {
      assert v[i..e] == [];
      match Intended(v[e..])
      case Ok(x) => assert [] + x == x;
      case Err(_) =>
    } else {
      assert v[i..][1..] == v[i + 1..];
      IntendedUpToEscape(v, i + 1);
      assert FirstEscape(v, i + 1) == e;
      PrependAssoc([v[i]], v[i + 1..e], Intended(v[e..]));
      assert [v[i]] + v[i + 1..e] == v[i..e];
    }
  }

  /** What the loop yields from the first escape `e` on: the buffer starts
      with the prefix before the backslash (one code unit shorter for an
      unrecognised escape) and the decoded code unit, and the rest is decoded
      as the reference decoder does. */
  function FromFirstEscape(v: JString, e: nat): Result<JString>
    requires EscapeStart(v, e)
  {
    match DecodeEscape(v[e + 1..])
    case Err(err) => Err(err)
    case Ok(esc) =>
      var j := if esc.unknown then e - 1 else e;
      Prepend((if j > 0 then v[..j] else []) + [esc.ch], Intended(v[e + 1 + esc.width..]))
  }

  /** Before the first escape the loop copies nothing; at the first escape
      it builds the buffer, and the rest follows the reference decoder. */
  lemma {:induction false} LoopWithoutBuffer(v: JString, i: nat)
    requires i <= |v|
    ensures var e := FirstEscape(v, i);
      UnescapeLoop(v, i, None) == if e == |v| then Ok(v) else FromFirstEscape(v, e)
    decreases |v| - i
  {
    var e := FirstEscape(v, i);
    if i < |v| && !EscapeStart(v, i) {
      LoopWithoutBuffer(v, i + 1);
    } else if i < |v| {
      match DecodeEscape(v[i + 1..])
      case Err(err) =>
      case Ok(esc) =>
        var j := if esc.unknown then i - 1 else i;
        LoopWithBuffer(v, i + 1 + esc.width, (if j > 0 then v[..j] else []) + [esc.ch]);
    }
  }

  /** A value without a backslash before its last code unit is returned
      unchanged; in particular a value without backslashes, and one whose only
      backslash is its final code unit, which is kept literally. */
  lemma UnescapeWithoutEscape(v: JString)
    requires forall k :: 0 <= k < |v| - 1 ==> v[k] != BACKSLASH
    ensures UnescapeJava(v) == Ok(v)
  {
    if |v| > 0 {
      LoopWithoutBuffer(v, 0);
      assert FirstEscape(v, 0) == |v|;
    }
  }

  /** The reference decoder at an escape: one decoded code unit, then the
      rest after the escape. */
  lemma IntendedAtEscape(v: JString, e: nat)
    requires EscapeStart(v, e)
    ensures DecodeEscape(v[e + 1..]).Err? ==> Intended(v[e..]) == Err(DecodeEscape(v[e + 1..]).error)
    ensures DecodeEscape(v[e + 1..]).Ok? ==>
      var esc := DecodeEscape(v[e + 1..]).value;
      Intended(v[e..]) == Prepend([esc.ch], Intended(v[e + 1 + esc.width..]))
  {
    assert v[e..][1..] == v[e + 1..];
    if DecodeEscape(v[e + 1..]).Ok? {
      var esc := DecodeEscape(v[e + 1..]).value;
      assert v[e..][1 + esc.width..] == v[e + 1 + esc.width..];
    }
  }

  /** The reference decoder splits at the first escape. */
  lemma IntendedSplit(v: JString)
    ensures Intended(v) == Prepend(v[..FirstEscape(v, 0)], Intended(v[FirstEscape(v, 0)..]))
  {
    IntendedUpToEscape(v, 0);
    assert v[0..] == v;
    assert v[0..FirstEscape(v, 0)] == v[..FirstEscape(v, 0)];
  }

  /** The as-written decoder agrees with the reference decoder unless the
      first escape of the value is unrecognised and has text before it. */
  lemma UnescapeAgreesWithIntended(v: JString)
    requires var e := FirstEscape(v, 0);
      e < |v| && DecodeEscape(v[e + 1..]).Ok? ==> !DecodeEscape(v[e + 1..]).value.unknown || e == 0
    ensures UnescapeJava(v) == Intended(v)
  {
    if |v| > 0 {
      var e := FirstEscape(v, 0);
      LoopWithoutBuffer(v, 0);
      IntendedSplit(v);
      if e < |v| {
        AgreeAtEscape(v, e);
      } else {
        IntendedWholeValue(v);
      }
    }
  }

  lemma IntendedWholeValue(v: JString)
    ensures Prepend(v[..|v|], Intended(v[|v|..])) == Ok(v)
  {
    assert v[|v|..] == [];
    assert v[..|v|] == v;
    assert v + [] == v;
  }

  lemma AgreeAtEscape(v: JString, e: nat)
    requires EscapeStart(v, e)
    requires DecodeEscape(v[e + 1..]).Ok? ==> !DecodeEscape(v[e + 1..]).value.unknown || e == 0
    ensures FromFirstEscape(v, e) == Prepend(v[..e], Intended(v[e..]))
  {
    IntendedAtEscape(v, e);
    var d := DecodeEscape(v[e + 1..]);
    if d.Ok? {
      var esc := d.value;
      PrependAssoc(v[..e], [esc.ch], Intended(v[e + 1 + esc.width..]));
      assert e == 0 ==> v[..e] == [];
    }
  }

  /** The quirk of the default branch: when the first escape of a value is
      unrecognised and something precedes it, the result keeps the escaped
      code unit but loses the code unit just before the backslash, where the
      reference decoder keeps it. */
  lemma UnescapeUnknownFirstEscape(v: JString)
    requires var e := FirstEscape(v, 0);
      e < |v| && e > 0 && DecodeEscape(v[e + 1..]).Ok? && DecodeEscape(v[e + 1..]).value.unknown
    ensures var e := FirstEscape(v, 0);
      && UnescapeJava(v) == Prepend(v[..e - 1] + [v[e + 1]], Intended(v[e + 2..]))
      && Intended(v) == Prepend(v[..e] + [v[e + 1]], Intended(v[e + 2..]))
  {
    var e := FirstEscape(v, 0);
    LoopWithoutBuffer(v, 0);
    IntendedSplit(v);
    IntendedAtEscape(v, e);
    assert v[e + 1..][0] == v[e + 1];
    PrependAssoc(v[..e], [v[e + 1]], Intended(v[e + 2..]));
  }

  /** "ab\q" decodes to "aq": the 'b' is lost. */
  lemma UnknownEscapeExample()
    ensures UnescapeJava([97, 98, BACKSLASH, 113]) == Ok([97, 113])
  {
    var v: JString := [97, 98, BACKSLASH, 113];
    assert !EscapeStart(v, 0) && !EscapeStart(v, 1) && EscapeStart(v, 2);
    assert FirstEscape(v, 0) == 2;
    assert v[3..] == [113];
    assert DecodeEscape(v[3..]) == Ok(Escape(113, 1, true));
    UnescapeUnknownFirstEscape(v);
    assert v[2 + 2..] == [];
    assert Intended(v[2 + 2..]) == Ok([]);
    assert v[..2 - 1] + [v[2 + 1]] == [97, 113];
    var w: JString := [97, 113];
    assert UnescapeJava(v) == Prepend(w, Ok([]));
    assert w + [] == w;
  }

  // ---------------------------------------------------------------------------
  // Escaping, the inverse direction

  function HexDigitChar(d: nat): JChar
    requires d < 16
  {
    if d < 10 then (48 + d) as JChar else (55 + d) as JChar
  }

  /** Four upper-case hex digits of a code unit. */
  function Hex4(c: JChar): JString {
    var n := c as int;
    var m1 := n / 16;
    var m2 := m1 / 16;
    [HexDigitChar(m2 / 16), HexDigitChar(m2 % 16), HexDigitChar(m1 % 16), HexDigitChar(n % 16)]
  }

  /** Java-source escaping of one code unit: the named escapes, `\uXXXX` for
      the remaining control code units, the code unit itself otherwise. */
  function EscapeChar(c: JChar): JString {
    if c == BACKSLASH || c == DOUBLE_QUOTE || c == SINGLE_QUOTE then [BACKSLASH, c]
    else if c == TAB then [BACKSLASH, 116]
    else if c == NEWLINE then [BACKSLASH, 110]
    else if c == CARRIAGE_RETURN then [BACKSLASH, 114]
    else if c == BACKSPACE then [BACKSLASH, 98]
    else if c == FORM_FEED then [BACKSLASH, 102]
    else if c < SPACE then [BACKSLASH, 117] + Hex4(c)
    else [c]
  }

  function EscapeText(s: JString): JString
    decreases |s|
  {
    if |s| == 0 then [] else EscapeChar(s[0]) + EscapeText(s[1..])
  }

  lemma HexDigitCharValue(d: nat)
    requires d < 16
    ensures Digit(HexDigitChar(d), 16) == Some(d)
    ensures HexDigitChar(d) >= ZERO
  {
  }

  lemma DigitsValueSnoc(ds: JString, c: JChar, v: nat, d: nat)
    requires DigitsValue(ds, 16) == Some(v) && Digit(c, 16) == Some(d)
    ensures DigitsValue(ds + [c], 16) == Some(v * 16 + d)
  {
    assert (ds + [c])[..|ds|] == ds;
  }

  lemma Hex4Value(c: JChar)
    ensures DigitsValue(Hex4(c), 16) == Some(c as int)
  {
    var n := c as int;
    var m1 := n / 16;
    var m2 := m1 / 16;
    var d0, d1, d2, d3 := m2 / 16, m2 % 16, m1 % 16, n % 16;
    assert n == m1 * 16 + d3 && m1 == m2 * 16 + d2 && m2 == d0 * 16 + d1;
    assert d0 < 16 by {
      assert m1 < 4096;
      assert m2 < 256;
    }
    HexDigitCharValue(d0);
    HexDigitCharValue(d1);
    HexDigitCharValue(d2);
    HexDigitCharValue(d3);
    var c0, c1, c2, c3 := HexDigitChar(d0), HexDigitChar(d1), HexDigitChar(d2), HexDigitChar(d3);
    assert DigitsValue([], 16) == Some(0);
    DigitsValueSnoc([], c0, 0, d0);
    assert [] + [c0] == [c0];
    DigitsValueSnoc([c0], c1, d0, d1);
    assert [c0] + [c1] == [c0, c1];
    DigitsValueSnoc([c0, c1], c2, m2, d2);
    assert [c0, c1] + [c2] == [c0, c1, c2];
    DigitsValueSnoc([c0, c1, c2], c3, m1, d3);
    assert [c0, c1, c2] + [c3] == Hex4(c);
  }

  lemma Hex4Parses(c: JChar)
    ensures ParseSigned(Hex4(c), 16, INT_MIN, INT_MAX) == Ok(c as int)
  {
    Hex4Value(c);
    HexDigitCharValue((c as int) / 16 / 16 / 16);
    assert Hex4(c)[0] >= ZERO;
  }

  /** A control code unit without a name is read back from `\uXXXX`. */
  lemma UnicodeEscapeDecodes(c: JChar, rest: JString)
    requires c < SPACE && EscapeChar(c) == [BACKSLASH, 117] + Hex4(c)
    ensures DecodeEscape(([117] + Hex4(c)) + rest) == Ok(Escape(c, 5, false))
  {
    var w := ([117] + Hex4(c)) + rest;
    assert w[1..5] == Hex4(c);
    Hex4Parses(c);
    assert ToJChar(c as int) == c;
  }

  /** `\u` and `\U` read four code units through `Integer.parseInt`, which
      takes a sign: `\U0041` is 'A' and `\u-001` is -1 cast to U+FFFF. */
  lemma UnicodeEscapeExamples()
    ensures DecodeEscape([85, 48, 48, 52, 49]) == Ok(Escape(65, 5, false))
    ensures DecodeEscape([117, MINUS, 48, 48, 49]) == Ok(Escape(0xFFFF, 5, false))
  {
    var a: JString := [85, 48, 48, 52, 49];
    assert a[1..5] == [48, 48, 52, 49];
    assert DigitsValue([48], 16) == Some(0) by { assert [48][..0] == []; }
    assert DigitsValue([48, 48], 16) == Some(0) by { assert [48, 48][..1] == [48]; }
    assert DigitsValue([48, 48, 52], 16) == Some(4) by { assert [48, 48, 52][..2] == [48, 48]; }
    assert DigitsValue([48, 48, 52, 49], 16) == Some(65) by { assert [48, 48, 52, 49][..3] == [48, 48, 52]; }
    var b: JString := [117, MINUS, 48, 48, 49];
    assert b[1..5] == [MINUS, 48, 48, 49];
    assert DigitsValue([48, 48, 49], 16) == Some(1) by { assert [48, 48, 49][..2] == [48, 48]; }
  }

  /** Each escaped code unit is read back by one step of the decoder. */
  lemma EscapeCharDecodes(c: JChar, rest: JString)
    ensures var w := EscapeChar(c) + rest;
      Intended(w) == Prepend([c], Intended(rest))
  {
    var w := EscapeChar(c) + rest;
    var e := EscapeChar(c);
    if |e| == 1 {
      assert w[0] == c && c != BACKSLASH;
      assert w[1..] == rest;
    } else if |e| == 2 {
      assert w[1..] == [e[1]] + rest;
      assert DecodeEscape(w[1..]) == Ok(Escape(c, 1, false));
      assert w[2..] == rest;
    } else {
      assert e == [BACKSLASH, 117] + Hex4(c);
      assert w[1..] == ([117] + Hex4(c)) + rest;
      UnicodeEscapeDecodes(c, rest);
      assert w[6..] == rest;
    }
  }

  /** Round trip: the reference decoder inverts Java-style escaping. */
  lemma {:induction false} IntendedInvertsEscape(s: JString)
    ensures Intended(EscapeText(s)) == Ok(s)
    decreases |s|
  {
    if |s| > 0 {
      IntendedInvertsEscape(s[1..]);
      EscapeCharDecodes(s[0], EscapeText(s[1..]));
      assert [s[0]] + s[1..] == s;
    }
  }

  /** Escaped text never contains an unrecognised escape, so the as-written
      decoder inverts it too. */
  lemma UnescapeInvertsEscape(s: JString)
    ensures UnescapeJava(EscapeText(s)) == Ok(s)
  {
    var v := EscapeText(s);
    IntendedInvertsEscape(s);
    var e := FirstEscape(v, 0);
    if e < |v| && DecodeEscape(v[e + 1..]).Ok? && DecodeEscape(v[e + 1..]).value.unknown {
      EscapedHasNoUnknownEscape(s, e);
      assert false;
    }
    UnescapeAgreesWithIntended(v);
  }

  /** Every escape start in escaped text begins a recognised escape. */
  lemma {:induction false} EscapedHasNoUnknownEscape(s: JString, e: nat)
    requires e < |EscapeText(s)| && FirstEscape(EscapeText(s), 0) == e
    ensures DecodeEscape(EscapeText(s)[e + 1..]).Ok? ==> !DecodeEscape(EscapeText(s)[e + 1..]).value.unknown
    decreases |s|
  {
    var v := EscapeText(s);
    var h := EscapeChar(s[0]);
    var t := EscapeText(s[1..]);
    assert v == h + t;
    if |h| > 1 {
      assert EscapeStart(v, 0);
      assert e == 0;
      assert v[1..][0] == h[1];
    } else {
      assert h[0] != BACKSLASH;
      assert !EscapeStart(v, 0);
      assert FirstEscape(v, 0) == FirstEscape(v, 1);
      FirstEscapeShift(h, t, 0);
      assert e >= 1;
      assert e - 1 < |t|;
      EscapedHasNoUnknownEscape(s[1..], e - 1);
      assert v[e + 1..] == t[e..];
    }
  }

  /** Escape positions in `[a] + t` beyond the first code unit are those of
      `t`, shifted by one. */
  lemma {:induction false} FirstEscapeShift(h: JString, t: JString, i: nat)
    requires |h| == 1 && i <= |t|
    ensures FirstEscape(h + t, i + 1) == FirstEscape(t, i) + 1
    decreases |t| - i
  {
    var v := h + t;
    assert EscapeStart(v, i + 1) <==> EscapeStart(t, i);
    if i < |t| && !EscapeStart(t, i) {
      FirstEscapeShift(h, t, i + 1);
    }
  }
}

=== FILE: javatext.dfy ===
/** Java text as the configuration code sees it: a `String` is a sequence of
    UTF-16 code units (`char`), bytes are octets, and the handful of JDK and
    Guava text primitives the core relies on (`String.trim`, Guava's
    whitespace trimming, `Character.digit`, `Integer.parseInt`) are defined
    here once. */
module JavaText {
  import opened Results

  /** A Java `char`: one UTF-16 code unit.  Surrogates are ordinary values. */
  newtype JChar = x: int | 0 <= x < 0x1_0000
  type JString = seq<JChar>

  newtype Byte = x: int | 0 <= x < 0x100
  type Bytes = seq<Byte>

  const TAB: JChar := 9
  const NEWLINE: JChar := 10
  const FORM_FEED: JChar := 12
  const CARRIAGE_RETURN: JChar := 13
  const BACKSPACE: JChar := 8
  const SPACE: JChar := 32
  const DOUBLE_QUOTE: JChar := 34
  const HASH: JChar := 35
  const SINGLE_QUOTE: JChar := 39
  const PLUS: JChar := 43
  const MINUS: JChar := 45
  const SLASH: JChar := 47
  const ZERO: JChar := 48
  const COLON: JChar := 58
  const EQUALS: JChar := 61
  const BACKSLASH: JChar := 92

  /** A Dafny string literal as Java text.  Only used for ASCII literals;
      a character outside the basic plane would become U+FFFD. */
  function Lit(s: string): (r: JString)
    ensures |r| == |s|
  {
    seq(|s|, i requires 0 <= i < |s| => if s[i] as int < 0x1_0000 then s[i] as int as JChar else 0xFFFD)
  }

  /** The narrowing cast `(char) n`: keeps the low 16 bits of the int. */
  function ToJChar(n: int): JChar {
    (n % 0x1_0000) as JChar
  }

  // ---------------------------------------------------------------------------
  // Trimming

  /** `String.trim()` removes every code unit up to and including U+0020. */
  predicate JavaBlank(c: JChar) {
    c <= SPACE
  }

  /** Guava's `CharMatcher.whitespace()`: the Unicode White_Space code units,
      which is what `Splitter.trimResults()` strips. */
  predicate GuavaBlank(c: JChar) {
    || (9 <= c <= 13) || c == 32 || c == 0x85 || c == 0xA0 || c == 0x1680
    || (0x2000 <= c <= 0x200A) || c == 0x2028 || c == 0x2029 || c == 0x202F
    || c == 0x205F || c == 0x3000
  }

  /** Which notion of blank a trim uses. */
  datatype Blanks = JavaTrim | GuavaTrim

  predicate IsBlank(kind: Blanks, c: JChar) {
    match kind
    case JavaTrim => JavaBlank(c)
    case GuavaTrim => GuavaBlank(c)
  }

  /** Neither end of `s` is a blank code unit. */
  predicate Trimmed(s: JString, blank: Blanks) {
    |s| == 0 || (!IsBlank(blank, s[0]) && !IsBlank(blank, s[|s| - 1]))
  }

  /** Index of the first non-blank code unit at or after `i` (or `|s|`). */
  function SkipLeading(s: JString, blank: Blanks, i: nat): (n: nat)
    requires i <= |s|
    ensures i <= n <= |s|
    ensures forall k :: i <= k < n ==> IsBlank(blank, s[k])
    ensures n < |s| ==> !IsBlank(blank, s[n])
    decreases |s| - i
  {
    if i < |s| && IsBlank(blank, s[i]) then SkipLeading(s, blank, i + 1) else i
  }

  /** End index of the last non-blank code unit before `j` (or 0). */
  function SkipTrailing(s: JString, blank: Blanks, j: nat): (n: nat)
    requires j <= |s|
    ensures n <= j
    ensures forall k :: n <= k < j ==> IsBlank(blank, s[k])
    ensures n > 0 ==> !IsBlank(blank, s[n - 1])
    decreases j
  {
    if j > 0 && IsBlank(blank, s[j - 1]) then SkipTrailing(s, blank, j - 1) else j
  }

  /** Strips blanks from both ends: the result is the slice of `s` between
      its first and its last non-blank code unit, and everything cut off is
      blank. */
  function Trim(s: JString, blank: Blanks): (r: JString)
    ensures Trimmed(r, blank)
    ensures var i := SkipLeading(s, blank, 0);
              && i + |r| <= |s| && r == s[i..i + |r|]
              && (forall k :: 0 <= k < i ==> IsBlank(blank, s[k]))
              && (forall k :: i + |r| <= k < |s| ==> IsBlank(blank, s[k]))
  {
    var i := SkipLeading(s, blank, 0);
    var j := SkipTrailing(s, blank, |s|);
    if j <= i then [] else s[i..j]
  }

  /** Trimming leaves already trimmed text alone, so trimming is idempotent. */
  lemma TrimmedIsFixpoint(s: JString, blank: Blanks)
    requires Trimmed(s, blank)
    ensures Trim(s, blank) == s
  {
  }

  lemma TrimIdempotent(s: JString, blank: Blanks)
    ensures Trim(Trim(s, blank), blank) == Trim(s, blank)
  {
    TrimmedIsFixpoint(Trim(s, blank), blank);
  }

  // ---------------------------------------------------------------------------
  // Digits and integer parsing

  /** The digit value `Character.digit` gives a code unit in radix 36:
      ASCII digits and Latin letters and their fullwidth forms. */
  function DigitValue(c: JChar): (r: Option<nat>)
    ensures r.Some? ==> r.value < 36
  {
    if 48 <= c <= 57 then Some((c - 48) as nat)
    else if 65 <= c <= 90 then Some((c - 55) as nat)
    else if 97 <= c <= 122 then Some((c - 87) as nat)
    else if 0xFF10 <= c <= 0xFF19 then Some((c - 0xFF10) as nat)
    else if 0xFF21 <= c <= 0xFF3A then Some((c - 0xFF21 + 10) as nat)
    else if 0xFF41 <= c <= 0xFF5A then Some((c - 0xFF41 + 10) as nat)
    else None
  }

  /** `Character.digit(c, radix)`, with `None` for Java's -1. */
  function Digit(c: JChar, radix: nat): (r: Option<nat>)
    ensures r.Some? ==> r.value < radix
  {
    match DigitValue(c)
    case Some(d) => if d < radix then Some(d) else None
    case None => None
  }

  /** The value of a digit string read most significant digit first;
      `None` as soon as one code unit is not a digit. */
  function DigitsValue(ds: JString, radix: nat): (r: Option<nat>)
    ensures |ds| == 0 ==> r == Some(0)
    decreases |ds|
  {
    if |ds| == 0 then Some(0)
    else
      var v := DigitsValue(ds[..|ds| - 1], radix);
      var d := Digit(ds[|ds| - 1], radix);
      if v.Some? && d.Some? then Some(v.value * radix + d.value) else None
  }

  /** A digit string has a value exactly when every code unit is a digit. */
  lemma {:induction false} DigitsValueDefined(ds: JString, radix: nat)
    ensures DigitsValue(ds, radix).Some? <==> forall k :: 0 <= k < |ds| ==> Digit(ds[k], radix).Some?
    decreases |ds|
  {
    if |ds| > 0 {
      var init := ds[..|ds| - 1];
      DigitsValueDefined(init, radix);
      assert forall k :: 0 <= k < |init| ==> init[k] == ds[k];
    }
  }

  /** The ranges of Java's `int` and `long`. */
  const INT_MIN: int := -0x8000_0000
  const INT_MAX: int := 0x7FFF_FFFF
  const LONG_MIN: int := -0x8000_0000_0000_0000
  const LONG_MAX: int := 0x7FFF_FFFF_FFFF_FFFF

  /** `Integer.parseInt(s, radix)` / `Long.parseLong(s, radix)` for a result
      range `lo..hi`: an optional leading '-' or '+', then at least one digit,
      and the value must fit the range; anything else is a
      NumberFormatException. */
  function ParseSigned(s: JString, radix: nat, lo: int, hi: int): (r: Result<int>)
    ensures r.Ok? ==> lo <= r.value <= hi
    ensures r.Err? ==> r.error == NumberFormat
    ensures |s| == 0 ==> r.Err?
  {
    if |s| == 0 then Err(NumberFormat)
    else
      var signed := s[0] < ZERO;
      if signed && s[0] != MINUS && s[0] != PLUS then Err(NumberFormat)
      else if signed && |s| == 1 then Err(NumberFormat)
      else
        var digits := if signed then s[1..] else s;
        match DigitsValue(digits, radix)
        case None => Err(NumberFormat)
        case Some(v) =>
          var n: int := if s[0] == MINUS then 0 - (v as int) else v as int;
          if lo <= n <= hi then Ok(n) else Err(NumberFormat)
  }

  /** Decimal text of a natural number, as `Integer.toString` writes it. */
  function ShowNat(n: nat): (r: JString)
    decreases n
  {
    if n < 10 then [(48 + n) as JChar] else ShowNat(n / 10) + [(48 + n % 10) as JChar]
  }

  /** Decimal text of an integer, as `Integer.toString`/`Long.toString` write it. */
  function ShowInt(n: int): JString {
    if n < 0 then [MINUS] + ShowNat(-n) else ShowNat(n)
  }

  lemma {:induction false} ShowNatDigits(n: nat)
    ensures |ShowNat(n)| > 0 && ZERO <= ShowNat(n)[0] <= 57
    ensures DigitsValue(ShowNat(n), 10) == Some(n)
    decreases n
  {
    if n >= 10 {
      ShowNatDigits(n / 10);
      var s := ShowNat(n);
      assert s[..|s| - 1] == ShowNat(n / 10);
    }
  }

  /** Parsing reads back exactly what `toString` writes, for every value in
      range. */
  lemma ParseShowRoundTrip(n: int, lo: int, hi: int)
    requires lo <= n <= hi
    ensures ParseSigned(ShowInt(n), 10, lo, hi) == Ok(n)
  {
    if n < 0 {
      ShowNatDigits(-n);
      assert ShowInt(n)[1..] == ShowNat(-n);
    } else {
      ShowNatDigits(n);
    }
  }

  // ---------------------------------------------------------------------------
  // ASCII case

  function AsciiUpper(c: JChar): JChar {
    if 97 <= c <= 122 then c - 32 else c
  }

  /** Character-wise ASCII case-insensitive equality.  Against "true" this
      is exactly `String.equalsIgnoreCase`: no code unit outside ASCII upper-
      or lower-cases onto t, r, u or e.  (It is not for every ASCII letter:
      Java also folds U+0130 and U+0131 onto i, U+212A onto k and U+017F
      onto s.) */
  predicate EqualsIgnoreAsciiCase(a: JString, b: JString) {
    |a| == |b| && forall k :: 0 <= k < |a| ==> AsciiUpper(a[k]) == AsciiUpper(b[k])
  }
}

=== FILE: loggingutil.dfy ===
/** `LoggingUtil`: the pure rules behind the logging console: which level
    names are accepted, which loggers are listed, and how a log file name is
    resolved against the cached file list.  Logback's logger context is a
    sequence of abstract logger records. */
module LoggingUtil {
  import opened Results
  import opened JavaText

  // ---------------------------------------------------------------------------
  // Level names

  /** `String.toUpperCase()` of one code unit, under a locale other than
      Turkish, Azeri or Lithuanian (those three special-case i, dotted I and,
      in Lithuanian, a combining dot above after i or j).  Every code unit
      whose upper case is pure ASCII is listed: ASCII letters, dotless i,
      long s, sharp s and the Latin ligatures.  Any other code unit is kept
      as it is: its real upper case is itself or contains a non-ASCII code
      unit, and a level name is ASCII, so the level check cannot tell the
      difference. */
  function UpperChar(c: JChar): (r: JString)
    ensures 1 <= |r| <= 3
  {
    if 97 <= c <= 122 then [c - 32]
    else if c == 0x131 then [73]           // dotless i -> I
    else if c == 0x17F then [83]           // long s -> S
    else if c == 0xDF then [83, 83]        // sharp s -> SS
    else if c == 0xFB00 then [70, 70]      // ff
    else if c == 0xFB01 then [70, 73]      // fi
    else if c == 0xFB02 then [70, 76]      // fl
    else if c == 0xFB03 then [70, 70, 73]  // ffi
    else if c == 0xFB04 then [70, 70, 76]  // ffl
    else if c == 0xFB05 || c == 0xFB06 then [83, 84]  // long s t, st
    else [c]
  }

  /** `StringUtils.upperCase(s)` for a non-null `s`, on the code units that
      can reach an ASCII level name (see `UpperChar`). */
  function Upper(s: JString): (r: JString)
    ensures |r| >= |s|
    decreases |s|
  {
    if |s| == 0 then [] else UpperChar(s[0]) + Upper(s[1..])
  }

  /** `ALL_LOG_LEVEL`. */
  function Levels(): set<JString> {
    {Lit("OFF"), Lit("TRACE"), Lit("DEBUG"), Lit("INFO"), Lit("WARN"), Lit("ERROR")}
  }

  /** `isValid(level)`: the upper-cased name is one of the six levels; a
      null name is not valid. */
  function IsValid(level: Option<JString>): (r: bool)
    ensures r ==> level.Some? && 3 <= |Upper(level.value)| <= 5
  {
    level.Some? && Upper(level.value) in Levels()
  }

  /** Every level word is already upper-case ASCII. */
  predicate UpperAscii(w: JString) {
    forall k :: 0 <= k < |w| ==> 65 <= w[k] <= 90
  }

  lemma LevelsAreUpperAscii(w: JString)
    requires w in Levels()
    ensures UpperAscii(w)
  {
    var a, b, c := Lit("OFF"), Lit("TRACE"), Lit("DEBUG");
    var d, e, f := Lit("INFO"), Lit("WARN"), Lit("ERROR");
    assert a == [79, 70, 70];
    assert b == [84, 82, 65, 67, 69];
    assert c == [68, 69, 66, 85, 71];
    assert d == [73, 78, 70, 79];
    assert e == [87, 65, 82, 78];
    assert f == [69, 82, 82, 79, 82];
  }

  /** On ASCII text, upper-casing is `AsciiUpper` on every code unit. */
  lemma {:induction false} UpperOfAscii(s: JString)
    requires forall k :: 0 <= k < |s| ==> s[k] < 128
    ensures |Upper(s)| == |s|
    ensures forall k :: 0 <= k < |s| ==> Upper(s)[k] == AsciiUpper(s[k])
    decreases |s|
  {
    if |s| > 0 {
      UpperOfAscii(s[1..]);
    }
  }

  /** Upper-casing cannot tell apart names that differ only in ASCII case. */
  lemma {:induction false} UpperIgnoresAsciiCase(a: JString, b: JString)
    requires EqualsIgnoreAsciiCase(a, b)
    ensures Upper(a) == Upper(b)
    decreases |a|
  {
    if |a| > 0 {
      assert AsciiUpper(a[0]) == AsciiUpper(b[0]);
      assert UpperChar(a[0]) == UpperChar(b[0]);
      assert EqualsIgnoreAsciiCase(a[1..], b[1..]) by {
        forall k | 0 <= k < |a| - 1
          ensures AsciiUpper(a[1..][k]) == AsciiUpper(b[1..][k])
        {
          assert AsciiUpper(a[k + 1]) == AsciiUpper(b[k + 1]);
        }
      }
      UpperIgnoresAsciiCase(a[1..], b[1..]);
    }
  }

  /** The check is case-insensitive: changing the ASCII case of a name never
      changes its validity. */
  lemma IsValidIgnoresCase(a: JString, b: JString)
    requires EqualsIgnoreAsciiCase(a, b)
    ensures IsValid(Some(a)) == IsValid(Some(b))
  {
    UpperIgnoresAsciiCase(a, b);
  }

  /** For an ASCII name, valid means equal to a level name ignoring case. */
  lemma IsValidAscii(s: JString)
    requires forall k :: 0 <= k < |s| ==> s[k] < 128
    ensures IsValid(Some(s)) <==> exists w :: w in Levels() && EqualsIgnoreAsciiCase(s, w)
  {
    UpperOfAscii(s);
    if IsValid(Some(s)) {
      var w := Upper(s);
      LevelsAreUpperAscii(w);
      assert EqualsIgnoreAsciiCase(s, w);
    }
    if w :| w in Levels() && EqualsIgnoreAsciiCase(s, w) {
      LevelsAreUpperAscii(w);
      assert Upper(s) == w;
    }
  }

  /** Upper-casing is locale-wide, not ASCII-only: a dotless i and the ff
      ligature spell valid names too. */
  lemma NonAsciiSpellings()
    ensures IsValid(Some([0x131, 110, 102, 111]))  // "ınfo"
    ensures IsValid(Some([111, 0xFB00]))           // "oﬀ"
    ensures !IsValid(None)
  {
    var s: JString := [0x131, 110, 102, 111];
    assert Upper(s[3..]) == [79] by { assert s[3..][1..] == []; }
    assert Upper(s[2..]) == [70, 79] by { assert s[2..][1..] == s[3..]; }
    assert Upper(s[1..]) == [78, 70, 79] by { assert s[1..][1..] == s[2..]; }
    assert Upper(s) == [73, 78, 70, 79];
    assert Lit("INFO") == [73, 78, 70, 79];
    var t: JString := [111, 0xFB00];
    assert Upper(t[1..]) == [70, 70] by { assert t[1..][1..] == []; }
    assert Upper(t) == [79, 70, 70];
    assert Lit("OFF") == [79, 70, 70];
  }

  // ---------------------------------------------------------------------------
  // Log file lookup

  /** The part of a cached `LogFileInfo` the lookup reads. */
  datatype LogFileInfo = LogFileInfo(name: JString, absolutePath: JString)

  /** Entry `i` is the first one in the cache named `file`. */
  predicate FirstNamed(cache: seq<LogFileInfo>, file: JString, i: int) {
    && 0 <= i < |cache| && cache[i].name == file
    && forall j :: 0 <= j < i ==> cache[j].name != file
  }

  /** `getFileAbsolutePath(file)`: the absolute path of the first cached
      file with that name; "" for a null or empty name or when nothing
      matches. */
  method FileAbsolutePath(cache: seq<LogFileInfo>, file: Option<JString>) returns (r: JString)
    ensures file.None? || |file.value| == 0 ==> r == []
    ensures file.Some? && |file.value| > 0 ==>
              forall i :: FirstNamed(cache, file.value, i) ==> r == cache[i].absolutePath
    ensures file.Some? && |file.value| > 0 && (forall i :: 0 <= i < |cache| ==> cache[i].name != file.value) ==>
              r == []
  {
    if file.None? || |file.value| == 0 {
      return [];
    }
    var i := 0;
    while i < |cache|
      invariant i <= |cache|
      invariant forall j :: 0 <= j < i ==> cache[j].name != file.value
    {
      if cache[i].name == file.value {
        return cache[i].absolutePath;
      }
      i := i + 1;
    }
    return [];
  }

  // ---------------------------------------------------------------------------
  // Logger listing

  /** A Logback logger as the listing sees it. */
  datatype Logger = Logger(name: JString, level: Option<JString>, appenders: nat)

  /** Configured in the XML: an explicit level or at least one appender. */
  predicate Configured(l: Logger) {
    l.level.Some? || l.appenders > 0
  }

  /** The configured loggers of `ls`, in their order. */
  function ConfiguredOnly(ls: seq<Logger>): (r: seq<Logger>)
    ensures |r| <= |ls|
    ensures forall k :: 0 <= k < |r| ==> Configured(r[k]) && r[k] in ls
    ensures forall l :: l in ls && Configured(l) ==> l in r
    decreases |ls|
  {
    if |ls| == 0 then []
    else
      var init := ConfiguredOnly(ls[..|ls| - 1]);
      assert forall l :: l in ls ==> l in ls[..|ls| - 1] || l == ls[|ls| - 1];
      if Configured(ls[|ls| - 1]) then init + [ls[|ls| - 1]] else init
  }

  /** Filtering distributes over concatenation, so it keeps the order. */
  lemma {:induction false} ConfiguredOnlyAppend(a: seq<Logger>, b: seq<Logger>)
    ensures ConfiguredOnly(a + b) == ConfiguredOnly(a) + ConfiguredOnly(b)
    decreases |b|
  {
    if |b| > 0 {
      assert (a + b)[..|a + b| - 1] == a + b[..|b| - 1];
      ConfiguredOnlyAppend(a, b[..|b| - 1]);
    } else {
      assert a + b == a;
    }
  }

  /** Filtering twice is filtering once. */
  lemma {:induction false} ConfiguredOnlyIdempotent(ls: seq<Logger>)
    ensures ConfiguredOnly(ConfiguredOnly(ls)) == ConfiguredOnly(ls)
    decreases |ls|
  {
    if |ls| > 0 {
      var init := ls[..|ls| - 1];
      ConfiguredOnlyIdempotent(init);
      if Configured(ls[|ls| - 1]) {
        ConfiguredOnlyAppend(ConfiguredOnly(init), [ls[|ls| - 1]]);
        assert ConfiguredOnly([ls[|ls| - 1]]) == [ls[|ls| - 1]] by {
          assert [ls[|ls| - 1]][..0] == [];
        }
      }
    }
  }

  /** `getLoggers(showAll)`: every logger of the context in order, or only
      the configured ones; an empty list when the logging backend is not
      Logback (`context` is `None`). */
  method GetLoggers(showAll: bool, context: Option<seq<Logger>>) returns (r: seq<Logger>)
    ensures context.None? ==> r == []
    ensures context.Some? && showAll ==> r == context.value
    ensures context.Some? && !showAll ==> r == ConfiguredOnly(context.value)
  {
    r := [];
    if context.None? {
      return;
    }
    var ls := context.value;
    var i := 0;
    while i < |ls|
      invariant i <= |ls|
      invariant r == if showAll then ls[..i] else ConfiguredOnly(ls[..i])
    {
      assert ls[..i + 1][..i] == ls[..i];
      if !showAll {
        if ls[i].level.Some? || ls[i].appenders > 0 {
          r := r + [ls[i]];
        }
      } else {
        r := r + [ls[i]];
      }
      i := i + 1;
    }
    assert ls[..i] == ls;
  }
}

=== FILE: mapext.dfy ===
/** `MapExt`: typed, defaulting accessors over an immutable string map, and
    its copy-on-write merge.  The backing `ImmutableMap` is a Dafny `map`;
    Java `null` is `None`. */
module MapExt {
  import opened Results
  import opened JavaText

  type StringMap = map<JString, JString>

  /** `putAll(items)`: a fresh map holding the old pairs overridden by
      `items`; the old map itself is not touched. */
  function PutAll(m: StringMap, items: StringMap): (r: StringMap)
    ensures r.Keys == m.Keys + items.Keys
    ensures forall k :: k in items ==> r[k] == items[k]
    ensures forall k :: k in m && k !in items ==> r[k] == m[k]
  {
    m + items
  }

  /** `get(key)`: the value, or `null` when the key is absent. */
  function Get(m: StringMap, key: JString): (r: Option<JString>)
    ensures r.Some? <==> key in m
    ensures r.Some? ==> r.value == m[key]
  {
    if key in m then Some(m[key]) else None
  }

  /** `get(key, def)`: the default only for an absent key; a present empty
      value is returned as it is. */
  function GetOr(m: StringMap, key: JString, def: Option<JString>): (r: Option<JString>)
    ensures key in m ==> r == Some(m[key])
    ensures key !in m ==> r == def
  {
    if key in m then Some(m[key]) else def
  }

  /** `has(key)`: the key is present, whatever its value. */
  predicate Has(m: StringMap, key: JString) {
    Get(m, key).Some?
  }

  lemma HasIffPresent(m: StringMap, key: JString)
    ensures Has(m, key) <==> key in m
  {
  }

  /** Java's `Strings.isNullOrEmpty(get(key))`. */
  predicate Blank(m: StringMap, key: JString) {
    key !in m || |m[key]| == 0
  }

  /** `getInt(key, def)`: the value read by `Integer.parseInt`; the default
      when the value is absent, empty or not a decimal int. */
  function GetInt(m: StringMap, key: JString, def: int): (r: int)
    requires INT_MIN <= def <= INT_MAX
    ensures INT_MIN <= r <= INT_MAX
    ensures Blank(m, key) ==> r == def
    ensures !Blank(m, key) ==> r == ParseSigned(m[key], 10, INT_MIN, INT_MAX).GetOr(def)
  {
    if Blank(m, key) then def
    else
      match ParseSigned(m[key], 10, INT_MIN, INT_MAX)
      case Ok(n) => n
      case Err(_) => def
  }

  /** `getInt(key)`: default 0. */
  function GetIntOrZero(m: StringMap, key: JString): (r: int)
    ensures INT_MIN <= r <= INT_MAX
    ensures Blank(m, key) ==> r == 0
    ensures !Blank(m, key) ==> r == ParseSigned(m[key], 10, INT_MIN, INT_MAX).GetOr(0)
  {
    GetInt(m, key, 0)
  }

  /** `getLong(key, def)`: as `getInt`, with `Long.parseLong` and the 64-bit
      range. */
  function GetLong(m: StringMap, key: JString, def: int): (r: int)
    requires LONG_MIN <= def <= LONG_MAX
    ensures LONG_MIN <= r <= LONG_MAX
    ensures Blank(m, key) ==> r == def
    ensures !Blank(m, key) ==> r == ParseSigned(m[key], 10, LONG_MIN, LONG_MAX).GetOr(def)
  {
    if Blank(m, key) then def
    else
      match ParseSigned(m[key], 10, LONG_MIN, LONG_MAX)
      case Ok(n) => n
      case Err(_) => def
  }

  /** `getLong(key)`: default 0L. */
  function GetLongOrZero(m: StringMap, key: JString): (r: int)
    ensures LONG_MIN <= r <= LONG_MAX
    ensures Blank(m, key) ==> r == 0
    ensures !Blank(m, key) ==> r == ParseSigned(m[key], 10, LONG_MIN, LONG_MAX).GetOr(0)
  {
    GetLong(m, key, 0)
  }

  /** `getBool(key, def)`: the default when absent or empty, otherwise
      `Boolean.parseBoolean`, true exactly for "true" in any case. */
  function GetBool(m: StringMap, key: JString, def: bool): (r: bool)
    ensures Blank(m, key) ==> r == def
    ensures !Blank(m, key) ==> (r <==> EqualsIgnoreAsciiCase(m[key], Lit("true")))
  {
    if Blank(m, key) then def else EqualsIgnoreAsciiCase(m[key], Lit("true"))
  }

  /** `getBool(key)`: default false. */
  function GetBoolOrFalse(m: StringMap, key: JString): (r: bool)
    ensures r <==> !Blank(m, key) && EqualsIgnoreAsciiCase(m[key], Lit("true"))
  {
    GetBool(m, key, false)
  }

  /** The typed getters read back every in-range number the JDK writes. */
  lemma GetIntReadsToString(m: StringMap, key: JString, n: int, def: int)
    requires INT_MIN <= n <= INT_MAX && INT_MIN <= def <= INT_MAX
    ensures GetInt(m[key := ShowInt(n)], key, def) == n
  {
    ParseShowRoundTrip(n, INT_MIN, INT_MAX);
    ShowNatDigits(if n < 0 then -n else n);
  }

  lemma GetLongReadsToString(m: StringMap, key: JString, n: int, def: int)
    requires LONG_MIN <= n <= LONG_MAX && LONG_MIN <= def <= LONG_MAX
    ensures GetLong(m[key := ShowInt(n)], key, def) == n
  {
    ParseShowRoundTrip(n, LONG_MIN, LONG_MAX);
    ShowNatDigits(if n < 0 then -n else n);
  }

  /** A long that does not fit an int falls back to the default. */
  lemma GetIntOutOfRange(m: StringMap, key: JString, n: int, def: int)
    requires INT_MAX < n <= LONG_MAX && INT_MIN <= def <= INT_MAX
    ensures GetInt(m[key := ShowInt(n)], key, def) == def
  {
    ShowNatDigits(n);
  }

  /** A present value that is not a number falls back to the default. */
  lemma GetIntMalformed(m: StringMap, key: JString, def: int)
    requires INT_MIN <= def <= INT_MAX
    ensures GetInt(m[key := Lit("notanumber")], key, def) == def
  {
    var v := Lit("notanumber");
    assert v[0] == 110;
    assert Digit(v[0], 10).None?;
  }

  /** "TRUE", "True" and "true" all read as true, whatever the default. */
  lemma GetBoolIgnoresCase(m: StringMap, key: JString, def: bool)
    ensures GetBool(m[key := Lit("TRUE")], key, def)
    ensures GetBool(m[key := Lit("True")], key, def)
  {
    var t, u, w := Lit("true"), Lit("TRUE"), Lit("True");
    assert t[0] == 116 && t[1] == 114 && t[2] == 117 && t[3] == 101;
    assert u[0] == 84 && u[1] == 82 && u[2] == 85 && u[3] == 69;
    assert w[0] == 84 && w[1] == 114 && w[2] == 117 && w[3] == 101;
  }

  /** Any other present value reads as false, even with default true. */
  lemma GetBoolOtherIsFalse(m: StringMap, key: JString, v: JString, def: bool)
    requires |v| > 0 && |v| != 4
    ensures !GetBool(m[key := v], key, def)
  {
  }
}

=== FILE: processinfo.dfy ===
/** `ProcessInfo`: what the process knows about itself, and the ordered
    list of names under which its settings are looked up. */
module ProcessInfo {
  import opened Results
  import opened JavaText

  /** The bean's fields; `None` is Java's null. */
  datatype ProcessInfo = ProcessInfo(
    path: Option<JString>,
    name: Option<JString>,
    profile: Option<JString>,
    ip: Option<JString>,
    port: Option<JString>,
    appId: Option<int>)

  /** `!Strings.isNullOrEmpty(s)`. */
  predicate Present(s: Option<JString>) {
    s.Some? && |s.value| > 0
  }

  /** The entry for a field: itself when present, nothing otherwise. */
  function Entry(s: Option<JString>): (r: seq<JString>)
    ensures |r| <= 1
    ensures |r| == 1 <==> Present(s)
    ensures |r| == 1 ==> r[0] == s.value
  {
    if Present(s) then [s.value] else []
  }

  /** `profilePriority()`: `ip:port` (when both are set), `ip`, the profile
      and the name, most specific first, each only when non-empty. */
  function ProfilePriority(p: ProcessInfo): (r: seq<JString>)
    ensures |r| <= 4
    ensures forall k :: 0 <= k < |r| ==> |r[k]| > 0
    ensures Present(p.ip) && Present(p.port) ==>
              |r| >= 2 && r[0] == p.ip.value + [COLON] + p.port.value && r[1] == p.ip.value
    ensures Present(p.ip) && !Present(p.port) ==> |r| >= 1 && r[0] == p.ip.value
    ensures !Present(p.ip) ==> r == Entry(p.profile) + Entry(p.name)
    ensures Present(p.name) ==> |r| > 0 && r[|r| - 1] == p.name.value
  {
    var ips := if Present(p.ip) then
                 (if Present(p.port) then [p.ip.value + [COLON] + p.port.value] else []) + [p.ip.value]
               else [];
    ips + Entry(p.profile) + Entry(p.name)
  }

  /** The list counts one entry per present field, plus `ip:port` when both
      address fields are present; in particular a port without an ip adds
      nothing. */
  lemma ProfilePriorityCount(p: ProcessInfo)
    ensures |ProfilePriority(p)| ==
            (if Present(p.ip) && Present(p.port) then 1 else 0) + (if Present(p.ip) then 1 else 0)
            + (if Present(p.profile) then 1 else 0) + (if Present(p.name) then 1 else 0)
    ensures !Present(p.ip) ==> ProfilePriority(p) == ProfilePriority(p.(port := None))
  {
  }

  /** The profile comes right after the address entries, and only when it
      is non-empty. */
  lemma ProfileFollowsAddress(p: ProcessInfo)
    ensures var ips := (if Present(p.ip) && Present(p.port) then 1 else 0) + (if Present(p.ip) then 1 else 0);
            Present(p.profile) <==> ips < |ProfilePriority(p)| && p.profile == Some(ProfilePriority(p)[ips])
  {
    ProfilePriorityCount(p);
  }

  /** A full record gives all four entries. */
  lemma ProfilePriorityExample()
    ensures ProfilePriority(ProcessInfo(None, Some(Lit("svc")), Some(Lit("prod")), Some(Lit("10.0.0.1")),
                                        Some(Lit("8080")), None))
            == [Lit("10.0.0.1:8080"), Lit("10.0.0.1"), Lit("prod"), Lit("svc")]
  {
    var ip, port := Lit("10.0.0.1"), Lit("8080");
    assert ip + [COLON] + port == Lit("10.0.0.1:8080");
  }
}

=== FILE: propertiestext.dfy ===
/** The line-oriented `key=value` text format of `Config`: splitting content
    into lines (`Config.lines`), reading one line (the body of
    `Config.parse`), folding lines into a map, and writing a map back as text
    (`Config.resetContent`). */
module PropertiesText {
  import opened Results
  import opened JavaText
  import opened Escapes

  // ---------------------------------------------------------------------------
  // Splitting

  /** Guava's `Splitter.on(sep).split(s)`: the pieces between separators,
      empty pieces included; `k` separators give `k + 1` pieces. */
  function Split(s: JString, sep: JChar): (r: seq<JString>)
    ensures |r| >= 1
    ensures forall k :: 0 <= k < |r| ==> sep !in r[k]
    ensures Join(r, sep) == s
    decreases |s|
  {
    if |s| == 0 then [[]]
    else
      var rest := Split(s[1..], sep);
      if s[0] == sep then
        assert ([[]] + rest)[1..] == rest;
        [[]] + rest
      else
        var r := [[s[0]] + rest[0]] + rest[1..];
        assert r[1..] == rest[1..];
        assert |rest| > 1 ==> Join(rest, sep) == rest[0] + [sep] + Join(rest[1..], sep);
        r
  }

  /** The pieces glued back together with the separator between them. */
  function Join(ps: seq<JString>, sep: JChar): JString
    requires |ps| >= 1
    decreases |ps|
  {
    if |ps| == 1 then ps[0] else ps[0] + [sep] + Join(ps[1..], sep)
  }

  lemma {:induction false} SplitPieceThenSep(p: JString, t: JString, sep: JChar)
    requires sep !in p
    ensures Split(p + [sep] + t, sep) == [p] + Split(t, sep)
    decreases |p|
  {
    var s := p + [sep] + t;
    if |p| == 0 {
      assert s == [sep] + t;
      assert s[1..] == t;
    } else {
      assert s[0] == p[0] && s[0] != sep;
      assert s[1..] == p[1..] + [sep] + t;
      SplitPieceThenSep(p[1..], t, sep);
      var rest := Split(s[1..], sep);
      assert rest[0] == p[1..] && rest[1..] == Split(t, sep);
      assert Split(s, sep) == [[s[0]] + rest[0]] + rest[1..];
      assert [s[0]] + rest[0] == p;
    }
  }

  lemma {:induction false} SplitPiece(p: JString, sep: JChar)
    requires sep !in p
    ensures Split(p, sep) == [p]
    decreases |p|
  {
    if |p| > 0 {
      SplitPiece(p[1..], sep);
      assert [p[0]] + p[1..] == p;
    }
  }

  /** Splitting inverts joining: pieces free of the separator come back
      unchanged. */
  lemma {:induction false} SplitJoin(ps: seq<JString>, sep: JChar)
    requires |ps| >= 1
    requires forall k :: 0 <= k < |ps| ==> sep !in ps[k]
    ensures Split(Join(ps, sep), sep) == ps
    decreases |ps|
  {
    if |ps| == 1 {
      SplitPiece(ps[0], sep);
    } else {
      SplitJoin(ps[1..], sep);
      SplitPieceThenSep(ps[0], Join(ps[1..], sep), sep);
      assert [ps[0]] + ps[1..] == ps;
    }
  }

  // ---------------------------------------------------------------------------
  // Lines

  /** A comment line starts with '#' or with "//". */
  predicate IsComment(line: JString) {
    |line| > 0 && (line[0] == HASH || (|line| >= 2 && line[0] == SLASH && line[1] == SLASH))
  }

  /** The shape of every line `lines` returns: non-empty, trimmed and, with
      comment removal, not a comment. */
  predicate LineShape(t: JString, removeComment: bool) {
    |t| > 0 && Trimmed(t, GuavaTrim) && !(removeComment && IsComment(t))
  }

  /** What `lines` keeps of one piece: the piece with Guava whitespace
      trimmed, unless that is empty or, when comments are removed, a
      comment. */
  function KeepPiece(p: JString, removeComment: bool): (r: Option<JString>)
    ensures r.None? <==> |Trim(p, GuavaTrim)| == 0 || (removeComment && IsComment(Trim(p, GuavaTrim)))
    ensures r.Some? ==> r.value == Trim(p, GuavaTrim)
    ensures r.Some? ==> LineShape(r.value, removeComment)
    ensures r.Some? && NEWLINE !in p ==> NEWLINE !in r.value
  {
    var t := Trim(p, GuavaTrim);
    var i := SkipLeading(p, GuavaTrim, 0);
    assert t == p[i..i + |t|];
    assert forall c :: c in t ==> c in p;
    if |t| == 0 || (removeComment && IsComment(t)) then None else Some(t)
  }

  /** The present values, in order. */
  function Somes(os: seq<Option<JString>>): (r: seq<JString>)
    ensures |r| <= |os|
    decreases |os|
  {
    if |os| == 0 then [] else (if os[0].Some? then [os[0].value] else []) + Somes(os[1..])
  }

  lemma {:induction false} SomesAppend(a: seq<Option<JString>>, b: seq<Option<JString>>)
    ensures Somes(a + b) == Somes(a) + Somes(b)
    decreases |a|
  {
    if |a| == 0 {
      assert a + b == b;
    } else {
      assert (a + b)[0] == a[0];
      assert (a + b)[1..] == a[1..] + b;
      SomesAppend(a[1..], b);
    }
  }

  /** Every value kept comes from the input. */
  lemma {:induction false} SomesMember(os: seq<Option<JString>>, k: nat)
    requires k < |Somes(os)|
    ensures Some(Somes(os)[k]) in os
    decreases |os|
  {
    var head: seq<JString> := if os[0].Some? then [os[0].value] else [];
    if k >= |head| {
      SomesMember(os[1..], k - |head|);
      assert forall x :: x in os[1..] ==> x in os;
    }
  }

  /** Nothing is dropped when every value is present. */
  lemma {:induction false} SomesAllPresent(os: seq<Option<JString>>)
    requires forall i :: 0 <= i < |os| ==> os[i].Some?
    ensures Somes(os) == seq(|os|, i requires 0 <= i < |os| => os[i].value)
    decreases |os|
  {
    if |os| > 0 {
      SomesAllPresent(os[1..]);
    }
  }

  /** What `lines` makes of each piece. */
  function KeptPieces(ps: seq<JString>, removeComment: bool): (r: seq<Option<JString>>)
    ensures |r| == |ps|
  {
    seq(|ps|, i requires 0 <= i < |ps| => KeepPiece(ps[i], removeComment))
  }

  /** The kept pieces, in order. */
  function KeepAll(ps: seq<JString>, removeComment: bool): (r: seq<JString>)
    ensures |r| <= |ps|
  {
    Somes(KeptPieces(ps, removeComment))
  }

  lemma KeepAllAppend(a: seq<JString>, b: seq<JString>, removeComment: bool)
    ensures KeepAll(a + b, removeComment) == KeepAll(a, removeComment) + KeepAll(b, removeComment)
  {
    assert KeptPieces(a + b, removeComment) == KeptPieces(a, removeComment) + KeptPieces(b, removeComment);
    SomesAppend(KeptPieces(a, removeComment), KeptPieces(b, removeComment));
  }

  /** Every kept piece has the shape of a line, and no piece gains a line
      break. */
  lemma KeepAllShape(ps: seq<JString>, removeComment: bool)
    ensures forall k :: 0 <= k < |KeepAll(ps, removeComment)| ==>
              LineShape(KeepAll(ps, removeComment)[k], removeComment)
    ensures (forall k :: 0 <= k < |ps| ==> NEWLINE !in ps[k]) ==>
              forall k :: 0 <= k < |KeepAll(ps, removeComment)| ==> NEWLINE !in KeepAll(ps, removeComment)[k]
  {
    var os := KeptPieces(ps, removeComment);
    forall k | 0 <= k < |Somes(os)|
      ensures LineShape(Somes(os)[k], removeComment)
      ensures (forall j :: 0 <= j < |ps| ==> NEWLINE !in ps[j]) ==> NEWLINE !in Somes(os)[k]
    {
      SomesMember(os, k);
      var i :| 0 <= i < |os| && os[i] == Some(Somes(os)[k]);
      assert KeepPiece(ps[i], removeComment) == Some(Somes(os)[k]);
    }
  }

  /** `Config.lines(s, removeComment)`: split on '\n', trim every piece, omit
      the empty ones and, when asked, the comments.  Every line it returns is
      non-empty, trimmed, free of '\n' and, with comment removal, not a
      comment; and it keeps the order of the pieces. */
  function Lines(s: JString, removeComment: bool): (r: seq<JString>)
    ensures forall k :: 0 <= k < |r| ==> LineShape(r[k], removeComment) && NEWLINE !in r[k]
  {
    KeepAllShape(Split(s, NEWLINE), removeComment);
    KeepAll(Split(s, NEWLINE), removeComment)
  }

  /** A text without a line break gives its Guava-trimmed self, unless that
      is empty or, when comments are removed, a comment. */
  lemma LinesOfLine(t: JString, removeComment: bool)
    requires NEWLINE !in t
    ensures var u := Trim(t, GuavaTrim);
            Lines(t, removeComment) == if |u| == 0 || (removeComment && IsComment(u)) then [] else [u]
  {
    SplitPiece(t, NEWLINE);
    var os := KeptPieces([t], removeComment);
    assert os == [KeepPiece(t, removeComment)];
    assert os[1..] == [];
  }

  /** The first line and the rest of the text are read independently, so
      `lines` keeps every line that survives trimming, in text order. */
  lemma LinesAppend(t: JString, rest: JString, removeComment: bool)
    requires NEWLINE !in t
    ensures Lines(t + [NEWLINE] + rest, removeComment) == Lines(t, removeComment) + Lines(rest, removeComment)
  {
    SplitPieceThenSep(t, rest, NEWLINE);
    SplitPiece(t, NEWLINE);
    KeepAllAppend([t], Split(rest, NEWLINE), removeComment);
  }

  // ---------------------------------------------------------------------------
  // One line

  /** `String.indexOf(c)`: the first position of `c`, `None` for -1. */
  function IndexOf(s: JString, c: JChar): (r: Option<nat>)
    ensures r.Some? ==> r.value < |s| && s[r.value] == c && c !in s[..r.value]
    ensures r.None? <==> c !in s
    decreases |s|
  {
    if |s| == 0 then None
    else if s[0] == c then Some(0)
    else
      match IndexOf(s[1..], c)
      case Some(i) =>
        assert s[..i + 1] == [s[0]] + s[1..][..i];
        Some(i + 1)
      case None => None
  }

  lemma {:induction false} IndexOfFirst(s: JString, c: JChar, i: nat)
    requires i < |s| && s[i] == c && c !in s[..i]
    ensures IndexOf(s, c) == Some(i)
    decreases i
  {
    if i > 0 {
      assert s[0] == s[..i][0];
      assert s[1..][..i - 1] == s[1..i];
      assert forall x :: x in s[1..i] ==> x in s[..i];
      IndexOfFirst(s[1..], c, i - 1);
    }
  }

  /** What one kept line contributes to the map. */
  datatype LineResult =
    | NoEntry                              // no '=' in the line
    | Entry(key: JString, value: JString)
    | Skipped(error: JavaError)            // un-escaping the value threw

  /** The body of the loop in `Config.parse`: split at the first '=', the
      key is the trimmed text before it, the value the trimmed and
      un-escaped text after it, or "" when '=' is the last code unit. */
  function ParseLine(line: JString): (r: LineResult)
    ensures r.NoEntry? <==> EQUALS !in line
    ensures r.Entry? ==> EQUALS !in r.key && Trimmed(r.key, JavaTrim)
    ensures |line| > 0 && line[|line| - 1] == EQUALS && EQUALS !in line[..|line| - 1] ==>
              r == Entry(Trim(line[..|line| - 1], JavaTrim), [])
    ensures r.Entry? ==>
              (IndexOf(line, EQUALS).Some? && r.key == Trim(line[..IndexOf(line, EQUALS).value], JavaTrim))
    ensures r.Entry? && IndexOf(line, EQUALS).value + 1 < |line| ==>
              UnescapeJava(Trim(line[IndexOf(line, EQUALS).value + 1..], JavaTrim)) == Ok(r.value)
  {
    match IndexOf(line, EQUALS)
    case None => NoEntry
    case Some(pos) =>
      var key := Trim(line[..pos], JavaTrim);
      assert forall c :: c in key ==> c in line[..pos];
      if pos + 1 < |line| then
        match UnescapeJava(Trim(line[pos + 1..], JavaTrim))
        case Ok(v) => Entry(key, v)
        case Err(e) => Skipped(e)
      else Entry(key, [])
  }

  /** `pos` is the line's first '=', something follows it, and un-escaping
      the trimmed text after it throws. */
  predicate FailsAfter(line: JString, pos: int) {
    && 0 <= pos < |line| - 1 && line[pos] == EQUALS && EQUALS !in line[..pos]
    && UnescapeJava(Trim(line[pos + 1..], JavaTrim)).Err?
  }

  /** A line is skipped exactly when it has an '=' before its last code unit
      and un-escaping the trimmed text after the first '=' throws. */
  lemma ParseLineSkipped(line: JString)
    ensures ParseLine(line).Skipped? <==> exists pos :: FailsAfter(line, pos)
  {
    match IndexOf(line, EQUALS)
    case None =>
      assert ParseLine(line).NoEntry?;
      forall pos | 0 <= pos < |line|
        ensures !FailsAfter(line, pos)
      {
        assert line[pos] in line;
      }
    case Some(pos) =>
      forall q | FailsAfter(line, q)
        ensures q == pos
      {
        IndexOfFirst(line, EQUALS, q);
      }
      if ParseLine(line).Skipped? {
        assert FailsAfter(line, pos);
      }
  }

  // ---------------------------------------------------------------------------
  // Many lines

  /** The map `Config.parse` builds from the per-line results: a
      `LinkedHashMap` filled top to bottom, so a later entry for a key
      replaces an earlier one, and a line without an entry leaves it alone. */
  function Fold(rs: seq<LineResult>): map<JString, JString>
    decreases |rs|
  {
    if |rs| == 0 then map[]
    else
      var m := Fold(rs[..|rs| - 1]);
      match rs[|rs| - 1]
      case Entry(k, v) => m[k := v]
      case _ => m
  }

  /** A key is in the folded map exactly when some line yields an entry for
      it. */
  lemma {:induction false} FoldKeys(rs: seq<LineResult>, key: JString)
    ensures key in Fold(rs) <==> exists k :: 0 <= k < |rs| && rs[k].Entry? && rs[k].key == key
    decreases |rs|
  {
    if |rs| > 0 {
      var init := rs[..|rs| - 1];
      FoldKeys(init, key);
      assert forall k :: 0 <= k < |init| ==> init[k] == rs[k];
    }
  }

  /** Last write wins: the value of a key is that of the last line that
      yields an entry for it. */
  lemma {:induction false} LastEntryWins(rs: seq<LineResult>, i: nat)
    requires i < |rs| && rs[i].Entry?
    requires forall j :: i < j < |rs| ==> !(rs[j].Entry? && rs[j].key == rs[i].key)
    ensures rs[i].key in Fold(rs) && Fold(rs)[rs[i].key] == rs[i].value
    decreases |rs|
  {
    if i < |rs| - 1 {
      var init := rs[..|rs| - 1];
      assert init[i] == rs[i];
      LastEntryWins(init, i);
    }
  }

  /** A line without '=' or whose value cannot be un-escaped changes nothing:
      the remaining lines are parsed as if it were not there. */
  lemma {:induction false} NonEntryIgnored(a: seq<LineResult>, r: LineResult, b: seq<LineResult>)
    requires !r.Entry?
    ensures Fold(a + [r] + b) == Fold(a + b)
    decreases |b|
  {
    if |b| == 0 {
      assert (a + [r] + b)[..|a|] == a;
      assert a + b == a;
    } else {
      var b' := b[..|b| - 1];
      NonEntryIgnored(a, r, b');
      assert (a + [r] + b)[..|a + [r] + b| - 1] == a + [r] + b';
      assert (a + b)[..|a + b| - 1] == a + b';
    }
  }

  /** Every line read on its own. */
  function ParseLines(ls: seq<JString>): (rs: seq<LineResult>)
    ensures |rs| == |ls|
  {
    seq(|ls|, i requires 0 <= i < |ls| => ParseLine(ls[i]))
  }

  /** `Config.parse` on decoded content: the lines with comments removed,
      each read on its own, folded into a map. */
  function ParseText(s: JString): map<JString, JString> {
    Fold(ParseLines(Lines(s, true)))
  }

  // ---------------------------------------------------------------------------
  // Writing

  function EntryLine(key: JString, value: JString): JString {
    key + [EQUALS] + value
  }

  /** The text `resetContent` writes for a map visited in `order`:
      `key=value\n` per entry, nothing escaped. */
  function Serialize(m: map<JString, JString>, order: seq<JString>): (r: JString)
    requires forall k :: k in order ==> k in m
    ensures |order| == 0 <==> |r| == 0
    decreases |order|
  {
    if |order| == 0 then []
    else EntryLine(order[0], m[order[0]]) + [NEWLINE] + Serialize(m, order[1..])
  }

  /** `order` visits every key of `m` exactly once. */
  ghost predicate Enumerates(order: seq<JString>, m: map<JString, JString>) {
    && (forall k :: k in order <==> k in m)
    && (forall i, j :: 0 <= i < j < |order| ==> order[i] != order[j])
  }

  /** Neither end is blank in either sense. */
  predicate CleanEnds(s: JString) {
    Trimmed(s, JavaTrim) && Trimmed(s, GuavaTrim)
  }

  /** A key that reads back as itself after `key=value` is written. */
  predicate CleanKey(k: JString) {
    NEWLINE !in k && EQUALS !in k && CleanEnds(k) && !IsComment(k)
  }

  /** A value that reads back as itself: no line break, nothing the
      un-escaper would touch, nothing trimming would cut. */
  predicate CleanValue(v: JString) {
    NEWLINE !in v && BACKSLASH !in v && CleanEnds(v)
  }

  function EntryLines(m: map<JString, JString>, order: seq<JString>): (r: seq<JString>)
    requires forall k :: k in order ==> k in m
    ensures |r| == |order|
  {
    seq(|order|, i requires 0 <= i < |order| => EntryLine(order[i], m[order[i]]))
  }

  lemma {:induction false} SerializeIsJoin(m: map<JString, JString>, order: seq<JString>)
    requires forall k :: k in order ==> k in m
    ensures Serialize(m, order) == Join(EntryLines(m, order) + [[]], NEWLINE)
    decreases |order|
  {
    if |order| > 0 {
      SerializeIsJoin(m, order[1..]);
      var ls := EntryLines(m, order) + [[]];
      assert ls[1..] == EntryLines(m, order[1..]) + [[]];
      if |order| == 1 {
        assert Join(ls[1..], NEWLINE) == [];
      }
    }
  }

  /** A clean entry's line is read back as that entry. */
  lemma ParseEntryLine(k: JString, v: JString)
    requires CleanKey(k) && CleanValue(v)
    ensures ParseLine(EntryLine(k, v)) == Entry(k, v)
  {
    var line := EntryLine(k, v);
    assert line[..|k|] == k;
    IndexOfFirst(line, EQUALS, |k|);
    var pos := |k|;
    TrimmedWeaken(k, JavaTrim);
    TrimmedIsFixpoint(k, JavaTrim);
    if pos + 1 < |line| {
      assert line[pos + 1..] == v;
      TrimmedWeaken(v, JavaTrim);
      TrimmedIsFixpoint(v, JavaTrim);
      UnescapeWithoutEscape(v);
    } else {
      assert v == [];
    }
  }

  lemma TrimmedWeaken(s: JString, blank: Blanks)
    requires CleanEnds(s)
    ensures Trimmed(s, blank)
  {
  }

  /** A clean entry's line survives `lines` untouched. */
  lemma KeepEntryLine(k: JString, v: JString)
    requires CleanKey(k) && CleanValue(v)
    ensures KeepPiece(EntryLine(k, v), true) == Some(EntryLine(k, v))
  {
    var line := EntryLine(k, v);
    assert line[|k|] == EQUALS;
    assert |k| > 0 ==> line[0] == k[0];
    assert |v| > 0 ==> line[|line| - 1] == v[|v| - 1];
    assert Trimmed(line, GuavaTrim);
    TrimmedIsFixpoint(line, GuavaTrim);
    if |k| >= 2 {
      assert line[0] == k[0] && line[1] == k[1];
    } else if |k| == 1 {
      assert line[0] == k[0] && line[1] == EQUALS;
    } else {
      assert line[0] == EQUALS;
    }
  }

  lemma KeepEntryLines(m: map<JString, JString>, order: seq<JString>)
    requires forall k :: k in order ==> k in m
    requires forall k :: k in m ==> CleanKey(k) && CleanValue(m[k])
    ensures KeepAll(EntryLines(m, order), true) == EntryLines(m, order)
  {
    var ls := EntryLines(m, order);
    var os := KeptPieces(ls, true);
    forall i | 0 <= i < |os|
      ensures os[i] == Some(ls[i])
    {
      KeepEntryLine(order[i], m[order[i]]);
    }
    SomesAllPresent(os);
  }

  /** Folding the entries of `order` gives `m` restricted to `order`. */
  lemma {:induction false} FoldEntries(m: map<JString, JString>, order: seq<JString>, rs: seq<LineResult>)
    requires forall k :: k in order ==> k in m
    requires |rs| == |order| && forall i :: 0 <= i < |rs| ==> rs[i] == Entry(order[i], m[order[i]])
    ensures Fold(rs) == map k | k in order :: m[k]
    decreases |order|
  {
    if |order| > 0 {
      var init := order[..|order| - 1];
      var last := order[|order| - 1];
      FoldEntries(m, init, rs[..|rs| - 1]);
      assert (map k | k in order :: m[k]) == (map k | k in init :: m[k])[last := m[last]];
    }
  }

  /** The lines of serialised text are exactly the entry lines. */
  lemma LinesOfSerialized(m: map<JString, JString>, order: seq<JString>)
    requires forall k :: k in order ==> k in m
    requires forall k :: k in m ==> CleanKey(k) && CleanValue(m[k])
    ensures Lines(Serialize(m, order), true) == EntryLines(m, order)
  {
    var ls := EntryLines(m, order);
    SerializeIsJoin(m, order);
    forall k | 0 <= k < |ls + [[]]|
      ensures NEWLINE !in (ls + [[]])[k]
    {
      if k < |ls| {
        var key := order[k];
        assert ls[k] == key + [EQUALS] + m[key];
      }
    }
    SplitJoin(ls + [[]], NEWLINE);
    KeepAllAppend(ls, [[]], true);
    assert KeepAll([[]], true) == [];
    KeepEntryLines(m, order);
    assert ls + [] == ls;
  }

  /** Round trip: the text written for a map with clean keys and values
      reads back as exactly that map.  Values with a backslash, a line break
      or surrounding blanks, and keys with '=', do not survive, since
      nothing is escaped on the way out. */
  lemma SerializeParseRoundTrip(m: map<JString, JString>, order: seq<JString>)
    requires forall k :: k in order <==> k in m
    requires forall k :: k in m ==> CleanKey(k) && CleanValue(m[k])
    ensures ParseText(Serialize(m, order)) == m
  {
    LinesOfSerialized(m, order);
    var rs := ParseLines(EntryLines(m, order));
    forall i | 0 <= i < |rs|
      ensures rs[i] == Entry(order[i], m[order[i]])
    {
      ParseEntryLine(order[i], m[order[i]]);
    }
    FoldEntries(m, order, rs);
  }
}

=== FILE: results.dfy ===
/** Optional values and the two Java exceptions the configuration core can
    raise internally.  `None` plays the part of Java's `null`; `Err` plays the
    part of a thrown, later caught, exception. */
module Results {

  datatype Option<+T> = None | Some(value: T) {
    function GetOr(default: T): T {
      match this
      case Some(v) => v
      case None => default
    }
  }

  /** The unchecked exceptions the parsing code can throw. */
  datatype JavaError =
    | NumberFormat        // java.lang.NumberFormatException
    | IndexOutOfBounds    // java.lang.StringIndexOutOfBoundsException

  datatype Result<+T> = Ok(value: T) | Err(error: JavaError) {
    /** The value, or `default` where Java catches the exception. */
    function GetOr(default: T): T {
      match this
      case Ok(v) => v
      case Err(_) => default
    }
  }
}
